=== FILE: README.md ===
# chartscan value-reference checker, modelled in Dafny

chartscan scans a Helm chart for `{{ .Values.<path> }}` placeholders whose dotted path is not
defined by the chart's values. This project models the core of that scan, found in
`internal/renderer/renderer.go`:

- **Extraction** (`TemplateParser`). The template is split into lines. Each line is scanned with
  the pattern `{{\s*\.Values\.([a-zA-Z0-9_.\[\]-]+)\s*}}`. Each match becomes a `ValueReference`
  holding the name, the file, the 1-based line number and the full text.
- **Values.** The chart's own `values.yaml` is loaded first, then every additional values file.
  A file that names the chart's own `values.yaml` is skipped. The documents are deep-merged from
  left to right (`loadAndMergeValues`, `mergeMaps`).
- **Checking** (`CheckValueReferences`, `checkNestedValueExists`). Each reference's name is cut at
  every `.`; a bracketed segment such as `items[0]` is a literal key (internal/renderer/renderer.go:111 and :136).
  The name must lead through nested mappings to a key that is present. Any value
  counts, including an explicit null. Each reference that fails produces one diagnostic line.
- **The scan** (`ScanHelmChart`) has three early exits:
  - the chart path is empty;
  - a dependency step fails;
  - a values file is missing.

  Otherwise it combines the lint errors, the template errors, the load errors and the undefined
  values, in that order.
- **Helpers:**
  - the release-name check (`isValidReleaseName`);
  - the `[ERROR]` line filter (`parseErrorLogs`);
  - the minimal-raggedness wrapper used for printing (`WrapString`, `WrapWords`).

Every external effect is an input of the model. That covers reading files, decoding YAML,
`os.Stat`, running `helm`, walking a directory and measuring display width. Each step that
`ScanHelmChart` performs one after another is a pure function over those inputs.

Modules:

| module | contents |
|---|---|
| `Wrappers` | `Option` and `Result` |
| `Text` | Go's `strings.Split`, `strings.Join` and `strings.Contains`, and `%d` |
| `Models` | `ValueReference` |
| `Values` | decoded YAML nodes, the reference walk, the merge |
| `Extractor` | the placeholder pattern as a deterministic scanner, proved equal to a declarative definition of a match; Go's leftmost-first `FindAll` iteration; `TemplateParser` |
| `Checker` | `CheckValueReferences` |
| `Loading` | `loadAndMergeValues` |
| `Scan` | `parseErrorLogs`, `handleDependencies`, `checkValuesFilesExistence`, `lintChart`, `parseTemplates`, `ScanHelmChart` |
| `ReleaseName` | `isValidReleaseName` |
| `Wrap` | `WrapString` and `WrapWords` |

## Model

| member | source | states |
|---|---|---|
| Text.SplitJoin | internal/renderer/renderer.go:111 | splitting undoes joining for pieces that do not hold the separator: a dotted name is read back as exactly its keys |
| Text.SplitAppend | internal/renderer/renderer.go:570 | the pieces of `a + "\n" + b` are the pieces of `a` followed by those of `b` |
| Text.SplitSingle | internal/renderer/renderer.go:45 | text splits into a single piece exactly when it holds no separator |
| Text.Contains | internal/renderer/renderer.go:573 | `strings.Contains` is true exactly when the needle occurs at some index |
| Text.NatToString | internal/renderer/renderer.go:115 | `%d` of a line number is a non-empty decimal numeral with no leading zero, and it denotes that number |
| Values.NestedValueExists | internal/renderer/renderer.go:125-150 | true exactly when the key list is non-empty and the walk through nested mappings reaches the last key; an explicit null leaf counts as present, and a non-mapping before the last key does not |
| Values.RemoveLeafUndefines | internal/renderer/renderer.go:135-137 | deleting the entry that a key path names makes that path undefined |
| Values.RemoveLeafKeepsSiblings | internal/renderer/renderer.go:135-145 | deleting one leaf leaves every sibling path under the same parent as defined or undefined as before |
| Values.MergeMaps | internal/renderer/renderer.go:161-173 | the merged keys are the union of both key sets; keys only in the target keep their value; the source's value replaces the target's unless both are mappings, which are merged recursively; the loop's result equals the recursive definition `Merge` |
| Values.MergeIdempotent | internal/renderer/renderer.go:161-173 | merging a mapping into itself changes nothing |
| Values.MergeIdentity | internal/renderer/renderer.go:161-173 | the empty mapping is an identity on both sides of the merge |
| Values.MergeNotCommutative | internal/renderer/renderer.go:171 | with one scalar key on both sides, the later document wins, so the order of the documents matters |
| Values.NullOverridesMapping | internal/renderer/renderer.go:164-171 | a null in the source replaces a whole mapping in the target, so no path below that key resolves in the merge |
| Values.ResolvesInMerge | internal/renderer/renderer.go:125-173 | a path resolves after the merge exactly when it resolves in the source, or it resolves in the target and the source does not replace any proper prefix of it by a non-mapping |
| Values.SourceLeafWins | internal/renderer/renderer.go:164-171 | a non-mapping value that the source holds at a path is the merged value at that path |
| Values.MergeAbsorbs | internal/renderer/renderer.go:161-173 | merging the same source twice in a row equals merging it once |
| Extractor.MatchAtCorrect | internal/renderer/renderer.go:43 | the scanner returns, at a position, exactly the match of the pattern that starts there, if one exists |
| Extractor.FindAllScans | internal/renderer/renderer.go:49 | the matches found are Go's leftmost-first, non-overlapping iteration: each is the leftmost match at or after the end of the previous one, and no match is left after the last |
| Extractor.ScanOfUnique | internal/renderer/renderer.go:49 | that iteration is determined by the line: two match lists that both satisfy it are equal |
| Extractor.FindAllWellFormed | internal/renderer/renderer.go:49-54 | every match found is a well-formed instance of the pattern |
| Extractor.CollectWellFormed | internal/renderer/renderer.go:52-69 | matches of the pattern never have an empty capture, so the loop over them never takes the error branch and yields one reference per match |
| Extractor.TemplateParser | internal/renderer/renderer.go:38-74 | for any content the parse succeeds, never taking the empty-reference branch (:56-58), and yields the references of the lines, numbered from 1, each line's references in the order of its leftmost match iteration |
| Extractor.TemplateParserShape | internal/renderer/renderer.go:43-69 | every reference carries the template's path and a line number within the file; its name is non-empty and made of path characters; its full text is a placeholder for that name that occurs on that line; references come out in non-decreasing line order |
| Extractor.TemplateParserPerLine | internal/renderer/renderer.go:45-70 | the references on line `i + 1` are exactly one per match of line `i`, in left-to-right order, with none merged or dropped |
| Extractor.NoPlaceholderNoReferences | internal/renderer/renderer.go:40-74 | text that holds no placeholder yields an empty list and no error |
| Checker.CheckValueReferences | internal/renderer/renderer.go:104-121 | never more diagnostics than references |
| Checker.CheckEmpty | internal/renderer/renderer.go:104-121 | no diagnostic is produced exactly when every reference resolves |
| Checker.CheckReportsUndefined | internal/renderer/renderer.go:113-115 | every diagnostic is the message of some input reference that does not resolve |
| Checker.CheckAppend | internal/renderer/renderer.go:109-117 | the diagnostics of `a + b` are those of `a` followed by those of `b`, so the input order is kept |
| Checker.CheckOne | internal/renderer/renderer.go:111-116 | a single reference gives nothing if it resolves, and otherwise exactly its diagnostic |
| Checker.ImageTagKeys | internal/renderer/renderer.go:111 | the name `image.tag` splits into the keys `image` and `tag` |
| Checker.UndefinedTagExample | internal/renderer/renderer.go:104-121 | `image.tag` against `{image: {repository: x}}` gives exactly `Undefined value: 'image.tag' referenced in templates/deployment.yaml at line 3` |
| Checker.DefinedExample | internal/renderer/renderer.go:135-137 | the same reference is defined once `image.tag` is present, even as null |
| Loading.LoadAndMergeValues | internal/renderer/renderer.go:488-527 | the loop's values are the left-to-right merge, starting from the empty mapping, of the chart's document and then each additional document that is loaded and not skipped; its errors are, in order, those of each file that is read and fails; there are no errors exactly when no file that is read fails |
| Loading.LoadChart | internal/renderer/renderer.go:496-507 | the chart's values file adds its document when present and loaded; an inspection error or a load error adds one message; an absent file adds neither |
| Loading.LoadExtra | internal/renderer/renderer.go:510-521 | one iteration over the additional files extends the merged documents and the errors by that file's share |
| Loading.ErrorsEmpty | internal/renderer/renderer.go:488-527 | the error list is empty exactly when every file that is read loads |
| Loading.ExtraErrorsCount | internal/renderer/renderer.go:510-521 | one error per additional file that is not skipped and fails to load, and none otherwise |
| Loading.ExtrasAppend | internal/renderer/renderer.go:510-522 | the documents and errors of `a + b` are those of `a` followed by those of `b` |
| Loading.MergeAllKeys | internal/renderer/renderer.go:488-527 | the merged values have exactly the top-level keys of all documents, so the result is the empty mapping, never nil, when nothing loads |
| Loading.ResolvesInMergeAll | internal/renderer/renderer.go:488-527 | a path resolves in the merged values exactly when some document defines it and no later document replaces a proper prefix of it by a non-mapping |
| Loading.LastLeafWins | internal/renderer/renderer.go:517-521 | a non-mapping value that the last document holds at a path is the merged value there |
| Loading.RepeatedFileHarmless | internal/renderer/renderer.go:510-521 | naming the same additional file twice in a row gives the same values as naming it once |
| Loading.OverrideExample | internal/renderer/renderer.go:510-521 | `{service: {port: 80}}` followed by `{service: {port: 8080, name: web}}` yields the second document |
| Scan.ErrorLines | internal/renderer/renderer.go:571-576 | the kept lines all mention `[ERROR]`, and each line that mentions it is kept exactly as often as it occurs |
| Scan.ErrorLinesAppend | internal/renderer/renderer.go:571-576 | filtering keeps the original order: the kept lines of `a + b` are those of `a` followed by those of `b` |
| Scan.ErrorLinesOne | internal/renderer/renderer.go:573-575 | a single line is kept exactly when it mentions `[ERROR]`; with `Scan.ErrorLinesAppend` this fixes the result on every list of lines |
| Scan.ParseErrorLogs | internal/renderer/renderer.go:568-580 | every returned line mentions `[ERROR]`, and each line of the output that mentions it is returned exactly as often as it occurs |
| Scan.ParseErrorLogsAppend | internal/renderer/renderer.go:568-580 | the error lines of two chunks of output joined by a newline are those of each chunk, in order |
| Scan.ParseErrorLogsLine | internal/renderer/renderer.go:568-580 | output without a newline is kept whole exactly when it mentions `[ERROR]` |
| Scan.NoTagNoErrors | internal/renderer/renderer.go:568-580 | output that never mentions `[ERROR]` yields no error line |
| Scan.HandleDependencies | internal/renderer/renderer.go:333-361 | success exactly when Chart.yaml reads and, if it lists dependencies, the cache directory and the update both succeed; success comes with no message and failure with exactly one |
| Scan.NoDependenciesNoUpdate | internal/renderer/renderer.go:342-360 | without dependencies, the cache directory and the update are never consulted |
| Scan.MissingFiles | internal/renderer/renderer.go:386-395 | no message exactly when every values file exists; each message names a missing file; there are never more messages than files |
| Scan.MissingFileReported | internal/renderer/renderer.go:388-392 | every values file that does not exist gets its `Values file does not exist` message |
| Scan.MissingFilesAppend | internal/renderer/renderer.go:388-393 | the messages for `a + b` are those for `a` followed by those for `b`, so files are reported in the order given |
| Scan.MissingFilesOne | internal/renderer/renderer.go:389-392 | a single file yields its message exactly when it does not exist |
| Scan.LintChart | internal/renderer/renderer.go:399-423 | a passing lint adds nothing; a failing lint adds exactly the lines of stdout followed by stderr that mention `[ERROR]`, each as often as it occurs (order as in `Scan.ErrorLinesAppend`) |
| Scan.SilentLintFailure | internal/renderer/renderer.go:414-419 | a failed lint whose output never mentions `[ERROR]` adds no message, just like a passing lint |
| Scan.ParseTemplates | internal/renderer/renderer.go:431-456 | no templates directory gives no reference and no message; a templates path that cannot be inspected, or is not a directory, gives no reference and exactly its one message |
| Scan.ParseTemplatesClean | internal/renderer/renderer.go:431-484 | parseTemplates reports nothing exactly when there is no templates directory, or the directory's walk meets no inaccessible entry and no unreadable template |
| Scan.WalkErrorsEmpty | internal/renderer/renderer.go:458-476 | the walk reports nothing exactly when no entry is inaccessible and every template file reads |
| Scan.WalkAppend | internal/renderer/renderer.go:458-476 | the walk handles callbacks one after another: its references and its messages over `a + b` are those of `a` followed by those of `b` |
| Scan.VisitTemplate | internal/renderer/renderer.go:465-474 | a readable `.yaml` file contributes exactly the extractor's references for its content and no message; a directory or any other file contributes nothing |
| Scan.ScanHelmChart | internal/renderer/renderer.go:180-234 | success exactly when there are no errors; values and the undefined list are both present or both absent; an empty chart path gives only `Chart path is empty`; when present, the undefined list ends the error list |
| Scan.ScanErrors | internal/renderer/renderer.go:205-225 | on the normal path the messages are the lint errors, then the template errors, then the load errors, then the undefined-value diagnostics |
| Scan.EarlyExits | internal/renderer/renderer.go:185-198 | a dependency failure, or a missing values file, ends the scan with that stage's messages only and no values |
| Scan.ScanValues | internal/renderer/renderer.go:200-222 | values are reported exactly when the scan gets past the early exits; they are then the merge of the loaded documents, and the undefined list is the checker's verdict on the extracted references |
| Scan.ScanSucceeds | internal/renderer/renderer.go:180-233 | the scan succeeds exactly when it gets past the early exits, the lint reports no error line, the templates and values files load cleanly, and every extracted reference resolves |
| Scan.EmptyChartSucceeds | internal/renderer/renderer.go:180-233 | a chart with no dependencies, no templates, no values files and a passing lint succeeds with empty values and no undefined values |
| ReleaseName.IsValidReleaseName | internal/renderer/renderer.go:323-328 | the one-pass matcher accepts a name exactly when it satisfies the position-wise reading of the pattern, and exactly when every dot-separated label is non-empty, uses only `a-z`, `0-9` and `-`, and starts and ends with a letter or digit |
| ReleaseName.LocalIffLabels | internal/renderer/renderer.go:325 | the position-wise and the label-wise readings of the pattern agree on every string |
| ReleaseName.JoinedLabels | internal/renderer/renderer.go:325 | labels joined by dots match exactly when every label matches |
| ReleaseName.ReleaseNameExamples | internal/renderer/renderer.go:325 | `my-release.v1` matches; the empty name, `-web`, `a..b` and `Web` do not |
| Wrap.BestFromMinimal | internal/renderer/renderer.go:735-745 | the inner loop keeps a cheapest candidate break, and the first among equally cheap ones |
| Wrap.StepOptimal | internal/renderer/renderer.go:730-746 | with the first candidate accepted, a position whose rest does not fit on one line breaks at a cheapest candidate |
| Wrap.StepsAdvance | internal/renderer/renderer.go:730-753 | with the first candidate accepted and every word within the limit, every break lies strictly after its position and within the words, so rebuilding the lines terminates |
| Wrap.SentinelStalls | internal/renderer/renderer.go:726-745 | as written, widths 1 and 50000 with limit 50000 leave the first break at 0, while the corrected rule breaks at 1 |
| Wrap.TwoWords | internal/renderer/renderer.go:730-746 | two words that do not fit on one line, each within the limit: the first word's line costs its squared slack and breaks after it, except that as written a squared slack of `MaxInt32` or more leaves the cost at `MaxInt32` and the break at 0 |
| Wrap.BestBreak | internal/renderer/renderer.go:735-745 | the imperative inner loop computes the cheapest break that the recursive definition describes |
| Wrap.CostTable | internal/renderer/renderer.go:725-747 | the imperative outer loop fills the table of costs and breaks as the recursive definition does |
| Wrap.CutLines | internal/renderer/renderer.go:748-754 | for any table whose breaks lead the loop strictly forward from the first word, the lines cut at the breaks are non-empty and together hold exactly the words, in order |
| Wrap.BestFromAgree | internal/renderer/renderer.go:735-745 | when the later steps agree, the inner loops as written and corrected keep the same candidate, or as written none while the corrected one costs at least `MaxInt32` |
| Wrap.StepAtAgree | internal/renderer/renderer.go:730-746 | from agreeing later steps, a position as written either records the corrected break with the same cost, or records none while both costs are at least `MaxInt32` |
| Wrap.StepsAgree | internal/renderer/renderer.go:725-747 | the tables as written and corrected agree at every position where the one as written records a break; elsewhere both costs are at least `MaxInt32`, so the correction changes only the positions that stall |
| Wrap.ChainsAgree | internal/renderer/renderer.go:725-753 | whenever the line-building loop as written moves forward at every position it visits, and so ends, the corrected table leads it through the same positions and gives the same lines |
| Wrap.WrapWords | internal/renderer/renderer.go:714-755 | the lines are non-empty, follow the table's breaks, and concatenate back to exactly the input words; on every input where the loop as written ends, they are the lines WrapWords as written returns |
| Wrap.ReplaceNewlines | internal/renderer/renderer.go:688 | every newline becomes a space and every other character is kept |
| Wrap.RaiseLimit | internal/renderer/renderer.go:690-696 | the limit is raised to at least every word's width, and is either the original limit or some word's width |
| Wrap.JoinGroups | internal/renderer/renderer.go:697-699 | joining each line's words, and then the lines, with spaces gives all the words joined with spaces |
| Wrap.WrapString | internal/renderer/renderer.go:687-701 | the lines joined with spaces give back the message with its newlines turned into spaces; there is at least one line; the lines are exactly the corrected WrapWords lines for the words of the message at the raised limit, with spacing 1 and the default penalty, each joined with spaces; the returned limit is the requested one or the widest word's width, whichever is larger |

## Left out

- Reading files, decoding YAML and `ValuesLoader` (renderer.go:81-100) are represented by a per-file load outcome: a document, an empty file, or an error.
- Chart.yaml is an input: `checkForDependencies` (renderer.go:533-564) is represented by its outcome, which is an error or whether dependencies are listed.
- Running `helm lint` and `helm dependency update`, and creating the cache directory, are represented by their outcomes and outputs.
- `os.Stat` and `filepath.Walk` are inputs. The templates directory is described by its state and by the walk's callbacks in walk order, so Go's lexical walk order is taken as given.
- The "Error walking templates directory" branch (renderer.go:478-480) is not modelled. The walk callback always returns nil, so `filepath.Walk` can only fail through it.
- `filepath.Join` is not modelled. The paths of the chart's `values.yaml` and of the templates directory are inputs.
- The deferred `cleanupDependencies` (renderer.go:368-381) and the removal of the cache directory are not modelled. They only delete files and do not affect any returned value.
- Error message texts that embed Go's `%v` of an external error are carried as given strings.
- `TemplateHelmChart` (renderer.go:239-320), `getChartName` (renderer.go:758-782), the pretty printer and `sanitizeErrors` (renderer.go:584-683) are not part of this model. They are presentation and subprocess plumbing.
- Strings are sequences of characters. The model does not tell bytes from runes, so a multi-byte UTF-8 character is one element.
- `runewidth.StringWidth` is a function parameter.
- Go's 64-bit `int` is unbounded here: `d*d` in `WrapWords` does not overflow in the model.
- Go's map iteration order is not modelled. `MergeMaps` picks the next source key arbitrarily, so its contract holds for every visiting order.
- The in-place aliasing of nested maps in `mergeMaps` is not modelled. The code stores the source's nested map into the target as is (renderer.go:171) and later merges change it in place (renderer.go:166). Merging here builds new immutable values, which is equivalent because no loaded document is read again after it is merged.
- The empty-reference branch of `TemplateParser` (renderer.go:56-58) is modelled (`Extractor.RefFor`) but cannot be taken. The capture group `([a-zA-Z0-9_.\[\]-]+)` at renderer.go:43 holds at least one character, so a placeholder with an empty or all-whitespace body, such as `{{ .Values. }}`, is not matched at all and yields no reference.
- A nested mapping with a key that is not a string, such as `ports: {80: web}`, is decoded by yaml.v3 (renderer.go:92) to `map[interface{}]interface{}`. `checkNestedValueExists` (renderer.go:141) and `mergeMaps` (renderer.go:164-166) treat it as a non-mapping, so in the model such a node must be given as a non-`Map` value (`Scalar` or `Seq`).
- Concurrency in the caller is not modelled: charts are scanned one at a time in the model.
- Wrap.WrapWords: requires every word to be no wider than the limit. `WrapString`, its only caller, guarantees this by raising the limit. Without it, a last word wider than the limit means that no position's break reaches the end. The reconstruction loop of WrapWords (renderer.go:750-753) then reaches a position whose break is 0. At the first word it appends empty lines forever; this is always the case for a single word. At a later word, `words[i:nbrk[i]]` at renderer.go:751 has its low bound above its high bound, and Go panics with "slice bounds out of range".
- Checker.CheckValueReferences: its own contract only bounds the number of diagnostics. Their contents and order are stated by `Checker.CheckEmpty`, `Checker.CheckReportsUndefined`, `Checker.CheckAppend` and `Checker.CheckOne`.

## Findings

| source | as written | input that shows it | evidently intended | confidence | as-written member | corrected member |
|---|---|---|---|---|---|---|
| internal/renderer/renderer.go:725-753 | every cost starts at `math.MaxInt32`, and a candidate break is taken only if it costs less than the current cost; when every candidate's squared slack is at least `MaxInt32`, no break is recorded and `nbrk[i]` stays 0, so the reconstruction loop appends empty lines forever at the first word, or, at a later word, panics with "slice bounds out of range" on `words[i:nbrk[i]]` at renderer.go:751 | words of widths 1 and 50000 with `spc` 1 and limit 50000, as `WrapString` produces for a message holding a 50000-character word after a short one: the only candidate costs 49999² = 2499900001 > 2147483647 | the first candidate is always taken, so every position gets a break after it and the loop terminates; the tables agree wherever the one as written records a break (`Wrap.StepsAgree`), so on every input where the loop as written ends the corrected WrapWords returns the same lines (`Wrap.ChainsAgree`) | not executed | Wrap.SentinelStalls | Wrap.WrapWords |

=== FILE: checker.dfy ===
/** CheckValueReferences: each reference whose dotted name does not resolve against the merged
    values yields one diagnostic line, in the order the references were found. */
module Checker {
  import opened Models
  import opened Values
  import Text

  /** The name cut at every `.`; bracketed and empty segments stay literal keys. */
  function KeysOf(ref: ValueReference): seq<string>
  {
    Text.Split(ref.name, '.')
  }

  predicate Defined(ref: ValueReference, values: Mapping)
  {
    Resolves(KeysOf(ref), values)
  }

  /** The reported text of an undefined reference. */
  function Diagnostic(ref: ValueReference): string
  {
    "Undefined value: '" + ref.name + "' referenced in " + ref.file + " at line " + Text.NatToString(ref.line)
  }

  /** What one reference contributes: nothing when defined, else its diagnostic. */
  function Report(ref: ValueReference, values: Mapping): seq<string>
  {
    if Defined(ref, values) then [] else [Diagnostic(ref)]
  }

  /** One diagnostic per undefined reference, in input order; defined ones add nothing. */
  function CheckValueReferences(refs: seq<ValueReference>, values: Mapping): (r: seq<string>)
    ensures |r| <= |refs|
  {
    if |refs| == 0 then [] else Report(refs[0], values) + CheckValueReferences(refs[1..], values)
  }

  /** No diagnostics exactly when every reference is defined. */
  lemma {:induction false} CheckEmpty(refs: seq<ValueReference>, values: Mapping)
    ensures CheckValueReferences(refs, values) == [] <==> forall k :: 0 <= k < |refs| ==> Defined(refs[k], values)
    decreases |refs|
  {
    if |refs| > 0 {
      CheckEmpty(refs[1..], values);
      assert forall k :: 0 < k < |refs| ==> refs[k] == refs[1..][k - 1];
    }
  }

  /** Every diagnostic reports some undefined reference of the input. */
  lemma {:induction false} CheckReportsUndefined(refs: seq<ValueReference>, values: Mapping)
    ensures forall i :: 0 <= i < |CheckValueReferences(refs, values)| ==>
              exists k :: 0 <= k < |refs| && !Defined(refs[k], values) &&
                          CheckValueReferences(refs, values)[i] == Diagnostic(refs[k])
    decreases |refs|
  {
    if |refs| > 0 {
      CheckReportsUndefined(refs[1..], values);
      var here := Report(refs[0], values);
      var rest := CheckValueReferences(refs[1..], values);
      var r := CheckValueReferences(refs, values);
      assert r == here + rest;
      forall i | 0 <= i < |r|
        ensures exists k :: 0 <= k < |refs| && !Defined(refs[k], values) && r[i] == Diagnostic(refs[k])
      {
        if i < |here| {
          assert (here + rest)[i] == Diagnostic(refs[0]);
        } else {
          assert (here + rest)[i] == rest[i - |here|];
          var k :| 0 <= k < |refs[1..]| && !Defined(refs[1..][k], values) && rest[i - |here|] == Diagnostic(refs[1..][k]);
          assert refs[1..][k] == refs[k + 1];
          assert 0 <= k + 1 < |refs| && !Defined(refs[k + 1], values) && (here + rest)[i] == Diagnostic(refs[k + 1]);
        }
      }
    } else {
      assert CheckValueReferences(refs, values) == [];
    }
  }

  /** The check distributes over concatenation: the diagnostics of `a + b` are those of `a`
      followed by those of `b`. With `CheckOne`, this pins down the whole function. */
  lemma {:induction false} CheckAppend(a: seq<ValueReference>, b: seq<ValueReference>, values: Mapping)
    ensures CheckValueReferences(a + b, values) == CheckValueReferences(a, values) + CheckValueReferences(b, values)
    decreases |a|
  {
    if |a| == 0 {
      assert a + b == b;
    } else {
      assert (a + b)[1..] == a[1..] + b;
      assert (a + b)[0] == a[0];
      CheckAppend(a[1..], b, values);
      var h := Report(a[0], values);
      assert h + (CheckValueReferences(a[1..], values) + CheckValueReferences(b, values))
          == (h + CheckValueReferences(a[1..], values)) + CheckValueReferences(b, values);
    }
  }

  /** A single reference: nothing if it resolves, otherwise exactly its diagnostic. */
  lemma CheckOne(ref: ValueReference, values: Mapping)
    ensures CheckValueReferences([ref], values) == if Defined(ref, values) then [] else [Diagnostic(ref)]
  {
    assert [ref][1..] == [];
  }

  /** The dotted name `image.tag` splits into its two keys. */
  lemma ImageTagKeys(ref: ValueReference)
    requires ref.name == "image.tag"
    ensures KeysOf(ref) == ["image", "tag"]
  {
    assert Text.Join(["image", "tag"], '.') == "image.tag";
    assert Text.SeparatorFree(["image", "tag"], '.');
    Text.SplitJoin(["image", "tag"], '.');
  }

  /** Fixture for the examples below: the line number 3 is printed as the numeral `3`. */
  lemma LineThree()
    ensures Text.NatToString(3) == "3"
  {
  }

  /** The undefined-reference example: `{{ .Values.image.tag }}` against
      `{image: {repository: "x"}}` gives one diagnostic naming `image.tag`. */
  lemma UndefinedTagExample(ref: ValueReference)
    requires ref == ValueReference("image.tag", "templates/deployment.yaml", 3, "{{ .Values.image.tag }}")
    ensures CheckValueReferences([ref], map["image" := Map(map["repository" := Scalar("x")])]) ==
              ["Undefined value: '" + "image.tag" + "' referenced in " + "templates/deployment.yaml" + " at line " + "3"]
  {
    var values := map["image" := Map(map["repository" := Scalar("x")])];
    ImageTagKeys(ref);
    assert !Defined(ref, values);
    CheckOne(ref, values);
    TagDiagnostic(ref);
  }

  /** Fixture for the examples: the diagnostic text of the example reference. */
  lemma TagDiagnostic(ref: ValueReference)
    requires ref == ValueReference("image.tag", "templates/deployment.yaml", 3, "{{ .Values.image.tag }}")
    ensures Diagnostic(ref) == "Undefined value: '" + "image.tag" + "' referenced in " + "templates/deployment.yaml" + " at line " + "3"
  {
    LineThree();
  }

  /** With the leaf present, even as an explicit null, the same reference resolves. */
  lemma DefinedExample(ref: ValueReference)
    requires ref == ValueReference("image.tag", "templates/deployment.yaml", 3, "{{ .Values.image.tag }}")
    ensures CheckValueReferences([ref], map["image" := Map(map["repository" := Scalar("x"), "tag" := Null])]) == []
  {
    var inner := map["repository" := Scalar("x"), "tag" := Null];
    var values := map["image" := Map(inner)];
    ImageTagKeys(ref);
    assert "tag" in inner;
    assert NestedValueExists(["tag"], Map(inner));
    assert NestedValueExists(["image", "tag"], Map(values));
    CheckOne(ref, values);
  }
}

=== FILE: extractor.dfy ===
/** TemplateParser: the extraction of `{{ .Values.<path> }}` placeholders from a template.
    The pattern `{{\s*\.Values\.([a-zA-Z0-9_.\[\]-]+)\s*}}` never needs backtracking (its
    capture class holds neither whitespace nor `}`), so it is modelled by a deterministic
    scanner, `MatchAt`, proved equal to the declarative shape `WellFormed`. */
module Extractor {
  import opened Wrappers
  import opened Models
  import Text

  /** The two character classes of the pattern. */
  datatype CharClass = Space | PathChar

  /** `Space` is RE2's `\s` (tab, newline, form feed, carriage return, space);
      `PathChar` is the capture's `[a-zA-Z0-9_.\[\]-]`. */
  predicate InClass(c: char, cls: CharClass)
  {
    match cls
    case Space => c == ' ' || c == '\t' || c == '\n' || c == '\U{C}' || c == '\r'
    case PathChar =>
      ('a' <= c <= 'z') || ('A' <= c <= 'Z') || ('0' <= c <= '9') ||
      c == '_' || c == '.' || c == '[' || c == ']' || c == '-'
  }

  predicate AllIn(s: string, cls: CharClass)
  {
    forall i :: 0 <= i < |s| ==> InClass(s[i], cls)
  }

  /** Every character of `line[lo..hi]` is in the class. */
  predicate RunOf(line: string, lo: int, hi: int, cls: CharClass)
    requires 0 <= lo && hi <= |line|
  {
    forall j :: lo <= j < hi ==> InClass(line[j], cls)
  }

  const Open: string := "{{"
  const Prefix: string := ".Values."
  const Close: string := "}}"

  /** One match in a line: the whole match is `line[start..end]`, the capture group
      `line[nameStart..nameEnd]` (the offsets Go's FindAllStringSubmatchIndex reports). */
  datatype Match = Match(start: nat, nameStart: nat, nameEnd: nat, end: nat)

  predicate InBounds(line: string, m: Match)
  {
    m.start <= m.nameStart <= m.nameEnd <= m.end <= |line|
  }

  /** `line[m.start..m.end]` is `{{`, optional whitespace, `.Values.`, a non-empty run of
      path characters (the capture), optional whitespace and `}}`. */
  predicate WellFormed(line: string, m: Match)
  {
    && InBounds(line, m)
    && m.start + |Open| + |Prefix| <= m.nameStart < m.nameEnd
    && m.nameEnd + |Close| <= m.end <= |line|
    && line[m.start..m.start + |Open|] == Open
    && RunOf(line, m.start + |Open|, m.nameStart - |Prefix|, Space)
    && line[m.nameStart - |Prefix|..m.nameStart] == Prefix
    && RunOf(line, m.nameStart, m.nameEnd, PathChar)
    && RunOf(line, m.nameEnd, m.end - |Close|, Space)
    && line[m.end - |Close|..m.end] == Close
  }

  /** The end of the longest run of class characters starting at `i`. */
  function Skip(line: string, i: nat, cls: CharClass): (r: nat)
    requires i <= |line|
    ensures i <= r <= |line|
    ensures RunOf(line, i, r, cls)
    ensures r == |line| || !InClass(line[r], cls)
    decreases |line| - i
  {
    if i == |line| || !InClass(line[i], cls) then i else Skip(line, i + 1, cls)
  }

  /** A run that stops at a non-class character is the one `Skip` finds. */
  lemma SkipUnique(line: string, i: nat, k: nat, cls: CharClass)
    requires i <= k <= |line| && RunOf(line, i, k, cls)
    requires k == |line| || !InClass(line[k], cls)
    ensures Skip(line, i, cls) == k
  {
  }

  /** The regular expression tried at one position: the match starting exactly at `p`, if any. */
  function MatchAt(line: string, p: nat): Option<Match>
    requires p <= |line|
  {
    if p + |Open| <= |line| && line[p..p + |Open|] == Open then
      var a := Skip(line, p + |Open|, Space);
      if a + |Prefix| <= |line| && line[a..a + |Prefix|] == Prefix then
        var ne := Skip(line, a + |Prefix|, PathChar);
        var b := Skip(line, ne, Space);
        if a + |Prefix| < ne && b + |Close| <= |line| && line[b..b + |Close|] == Close
        then Some(Match(p, a + |Prefix|, ne, b + |Close|))
        else None
      else None
    else None
  }

  /** The scanner agrees with the pattern: what it returns at `p` is a well-formed match
      starting at `p`, and any well-formed match starting at `p` is what it returns, so
      there is at most one and no backtracking is needed to find it. */
  lemma MatchAtCorrect(line: string, p: nat)
    requires p <= |line|
    ensures MatchAt(line, p).Some? ==> MatchAt(line, p).value.start == p && WellFormed(line, MatchAt(line, p).value)
    ensures forall m :: WellFormed(line, m) && m.start == p ==> MatchAt(line, p) == Some(m)
  {
    MatchAtSound(line, p);
    forall m | WellFormed(line, m) && m.start == p ensures MatchAt(line, p) == Some(m) {
      MatchAtComplete(line, m);
    }
  }

  /** Any well-formed match is what the scanner returns at its start. */
  lemma MatchAtComplete(line: string, m: Match)
    requires WellFormed(line, m)
    ensures MatchAt(line, m.start) == Some(m)
  {
    MatchIsScanned(line, m);
    MatchAtSteps(line, m.start, m.nameStart - |Prefix|, m.nameStart, m.nameEnd, m.end - |Close|, m.end);
  }

  /** The scanner at `p`, given where each of its skips stops. */
  lemma MatchAtSteps(line: string, p: nat, a: nat, ns: nat, ne: nat, b: nat, e: nat)
    requires p + |Open| <= |line| && line[p..p + |Open|] == Open
    requires Skip(line, p + |Open|, Space) == a && a + |Prefix| == ns <= |line| && line[a..ns] == Prefix
    requires Skip(line, ns, PathChar) == ne && ns < ne
    requires Skip(line, ne, Space) == b && b + |Close| == e <= |line| && line[b..e] == Close
    ensures MatchAt(line, p) == Some(Match(p, ns, ne, e))
  {
  }

  /** What the scanner returns at `p` is a well-formed match starting at `p`. */
  lemma MatchAtSound(line: string, p: nat)
    requires p <= |line|
    ensures MatchAt(line, p).Some? ==> MatchAt(line, p).value.start == p && WellFormed(line, MatchAt(line, p).value)
  {
  }

  /** The scanner's steps land exactly on the boundaries of any well-formed match. */
  lemma MatchIsScanned(line: string, m: Match)
    requires WellFormed(line, m)
    ensures Skip(line, m.start + |Open|, Space) == m.nameStart - |Prefix|
    ensures Skip(line, m.nameStart, PathChar) == m.nameEnd
    ensures Skip(line, m.nameEnd, Space) == m.end - |Close|
  {
    assert line[m.nameStart - |Prefix|] == line[m.nameStart - |Prefix|..m.nameStart][0] == '.';
    SkipUnique(line, m.start + |Open|, m.nameStart - |Prefix|, Space);
    assert line[m.end - |Close|] == line[m.end - |Close|..m.end][0] == '}';
    assert m.nameEnd < m.end - |Close| ==> InClass(line[m.nameEnd], Space);
    SkipUnique(line, m.nameStart, m.nameEnd, PathChar);
    SkipUnique(line, m.nameEnd, m.end - |Close|, Space);
  }

  /** No well-formed match starts in `[lo, hi)`. */
  ghost predicate NoMatchStartsIn(line: string, lo: int, hi: int)
  {
    forall m :: WellFormed(line, m) ==> !(lo <= m.start < hi)
  }

  /** Go's leftmost-first, non-overlapping iteration from `from`: the first element is the
      leftmost match starting at or after `from`, and the rest is the same iteration resumed
      at its end; when no match is left the list is empty. */
  ghost predicate ScanOf(line: string, from: nat, ms: seq<Match>)
    decreases |ms|
  {
    if |ms| == 0 then NoMatchStartsIn(line, from, |line| + 1)
    else
      && WellFormed(line, ms[0])
      && from <= ms[0].start
      && NoMatchStartsIn(line, from, ms[0].start)
      && ScanOf(line, ms[0].end, ms[1..])
  }

  /** FindAllStringSubmatchIndex(line, -1), resumed at `from`. */
  function FindAll(line: string, from: nat): (r: seq<Match>)
    requires from <= |line|
    ensures forall k :: 0 <= k < |r| ==> InBounds(line, r[k]) && from <= r[k].start
    decreases |line| - from
  {
    if from == |line| then []
    else
      MatchAtSound(line, from);
      match MatchAt(line, from)
      case Some(m) => [m] + FindAll(line, m.end)
      case None => FindAll(line, from + 1)
  }

  /** FindAll is Go's leftmost-first, non-overlapping iteration over the pattern's matches. */
  lemma {:induction false} FindAllScans(line: string, from: nat)
    requires from <= |line|
    ensures ScanOf(line, from, FindAll(line, from))
    decreases |line| - from
  {
    if from < |line| {
      MatchAtCorrect(line, from);
      match MatchAt(line, from)
      case Some(m) =>
        FindAllScans(line, m.end);
        assert ([m] + FindAll(line, m.end))[1..] == FindAll(line, m.end);
      case None =>
        FindAllScans(line, from + 1);
        SkipFailedStart(line, from, FindAll(line, from + 1));
    }
  }

  /** A position where no match starts can be added to the front of a scan. */
  lemma SkipFailedStart(line: string, from: nat, ms: seq<Match>)
    requires ScanOf(line, from + 1, ms)
    requires forall m :: WellFormed(line, m) ==> m.start != from
    ensures ScanOf(line, from, ms)
  {
  }

  /** Every element of a scan is a well-formed match. */
  lemma {:induction false} ScanOfWellFormed(line: string, from: nat, ms: seq<Match>)
    requires ScanOf(line, from, ms)
    ensures forall k :: 0 <= k < |ms| ==> WellFormed(line, ms[k])
    decreases |ms|
  {
    if |ms| > 0 {
      ScanOfWellFormed(line, ms[0].end, ms[1..]);
      assert forall k :: 0 < k < |ms| ==> ms[k] == ms[1..][k - 1];
    }
  }

  lemma FindAllWellFormed(line: string)
    ensures forall k :: 0 <= k < |FindAll(line, 0)| ==> WellFormed(line, FindAll(line, 0)[k])
  {
    FindAllScans(line, 0);
    ScanOfWellFormed(line, 0, FindAll(line, 0));
  }

  /** The leftmost-first iteration is determined by the line: any two lists meeting `ScanOf`
      are equal, so `FindAll` is the only one. */
  lemma {:induction false} ScanOfUnique(line: string, from: nat, ms: seq<Match>, ns: seq<Match>)
    requires ScanOf(line, from, ms) && ScanOf(line, from, ns)
    ensures ms == ns
    decreases |ms|
  {
    if |ms| > 0 && |ns| > 0 {
      assert ms[0].start == ns[0].start;
      MatchAtCorrect(line, ms[0].start);
      ScanOfUnique(line, ms[0].end, ms[1..], ns[1..]);
      assert ms == [ms[0]] + ms[1..] && ns == [ns[0]] + ns[1..];
    }
  }

  /** The reference one match yields, located on line `lineNo` of `file`. */
  function ToRef(file: string, lineNo: nat, line: string, m: Match): ValueReference
    requires InBounds(line, m)
  {
    ValueReference(line[m.nameStart..m.nameEnd], file, lineNo, line[m.start..m.end])
  }

  /** One match of the loop body: an empty capture is TemplateParser's parse error,
      anything else becomes a reference. */
  function RefFor(file: string, lineNo: nat, line: string, m: Match): (r: Result<ValueReference, string>)
    requires InBounds(line, m)
  {
    var fullText := line[m.start..m.end];
    if m.nameStart == m.nameEnd then Failure("empty value reference: " + fullText)
    else Success(ToRef(file, lineNo, line, m))
  }

  /** The matches of one line turned into references, stopping at the first empty capture
      (no partial list is kept). */
  function CollectRefs(file: string, lineNo: nat, line: string, ms: seq<Match>): Result<seq<ValueReference>, string>
    requires forall k :: 0 <= k < |ms| ==> InBounds(line, ms[k])
  {
    if |ms| == 0 then Success([])
    else
      var head := RefFor(file, lineNo, line, ms[0]);
      if head.Failure? then Failure(head.error)
      else
        var tail := CollectRefs(file, lineNo, line, ms[1..]);
        if tail.Failure? then tail else Success([head.value] + tail.value)
  }

  /** Lines `first`, `first + 1`, ... in turn; any failure fails the whole file. */
  function ExtractLines(file: string, lines: seq<string>, first: nat): Result<seq<ValueReference>, string>
  {
    if |lines| == 0 then Success([])
    else
      var here := CollectRefs(file, first, lines[0], FindAll(lines[0], 0));
      if here.Failure? then Failure(here.error)
      else
        var rest := ExtractLines(file, lines[1..], first + 1);
        if rest.Failure? then rest else Success(here.value + rest.value)
  }

  /** TemplateParser applied to a file's content: split on `"\n"`, number lines from 1. The
      empty-reference error is unreachable: the pattern's `+` forbids an empty capture, so the
      parse always succeeds, with the references of the lines' leftmost scans in order. */
  function TemplateParser(file: string, content: string): (r: Result<seq<ValueReference>, string>)
    ensures r == Success(Refs(file, Text.Split(content, '\n'), 1))
  {
    ExtractLinesRefs(file, Text.Split(content, '\n'), 1);
    ExtractLines(file, Text.Split(content, '\n'), 1)
  }

  // ---- Reference semantics: the references of a line and of a file -----------------------

  /** One reference per match, in the matches' order. */
  function MatchRefs(file: string, lineNo: nat, line: string, ms: seq<Match>): (r: seq<ValueReference>)
    requires forall k :: 0 <= k < |ms| ==> InBounds(line, ms[k])
    ensures |r| == |ms|
    ensures forall k {:trigger r[k]} :: 0 <= k < |r| ==> r[k] == ToRef(file, lineNo, line, ms[k])
  {
    if |ms| == 0 then [] else [ToRef(file, lineNo, line, ms[0])] + MatchRefs(file, lineNo, line, ms[1..])
  }

  /** The references of one line: one per match of the leftmost iteration, in its order. */
  function LineRefs(file: string, lineNo: nat, line: string): seq<ValueReference>
  {
    MatchRefs(file, lineNo, line, FindAll(line, 0))
  }

  /** The references of consecutive lines numbered from `first`. */
  function Refs(file: string, lines: seq<string>, first: nat): seq<ValueReference>
  {
    if |lines| == 0 then [] else LineRefs(file, first, lines[0]) + Refs(file, lines[1..], first + 1)
  }

  /** The references of `refs` located on line `n`, in their order. */
  function OnLine(refs: seq<ValueReference>, n: nat): seq<ValueReference>
  {
    if |refs| == 0 then []
    else (if refs[0].line == n then [refs[0]] else []) + OnLine(refs[1..], n)
  }

  /** `text` is a placeholder whose capture is `name`: `{{`, whitespace, `.Values.`, `name`,
      whitespace, `}}`, with `name` a non-empty run of path characters. */
  ghost predicate IsPlaceholder(text: string, name: string)
  {
    && |name| > 0 && AllIn(name, PathChar)
    && exists ws1, ws2 :: AllIn(ws1, Space) && AllIn(ws2, Space) &&
         text == Open + ws1 + Prefix + name + ws2 + Close
  }

  // ---- Properties -----------------------------------------------------------------------

  /** Well-formed matches never have an empty capture: collecting them cannot fail. */
  lemma {:induction false} CollectWellFormed(file: string, lineNo: nat, line: string, ms: seq<Match>)
    requires forall k :: 0 <= k < |ms| ==> InBounds(line, ms[k]) && WellFormed(line, ms[k])
    ensures CollectRefs(file, lineNo, line, ms) == Success(MatchRefs(file, lineNo, line, ms))
    decreases |ms|
  {
    if |ms| > 0 {
      CollectWellFormed(file, lineNo, line, ms[1..]);
    }
  }

  lemma {:induction false} ExtractLinesRefs(file: string, lines: seq<string>, first: nat)
    ensures ExtractLines(file, lines, first) == Success(Refs(file, lines, first))
    decreases |lines|
  {
    if |lines| > 0 {
      FindAllWellFormed(lines[0]);
      CollectWellFormed(file, first, lines[0], FindAll(lines[0], 0));
      ExtractLinesRefs(file, lines[1..], first + 1);
    }
  }

  lemma SliceSplit(s: string, a: nat, b: nat, c: nat)
    requires a <= b <= c <= |s|
    ensures s[a..c] == s[a..b] + s[b..c]
  {
  }

  /** A well-formed match cut into its six pieces. */
  lemma MatchPieces(line: string, m: Match)
    requires WellFormed(line, m)
    ensures line[m.start..m.end] ==
            Open + line[m.start + |Open|..m.nameStart - |Prefix|] + Prefix + line[m.nameStart..m.nameEnd] +
            line[m.nameEnd..m.end - |Close|] + Close
  {
    var s, ns, ne, e := m.start, m.nameStart, m.nameEnd, m.end;
    var p1, p2, p5 := s + |Open|, ns - |Prefix|, e - |Close|;
    SliceSplit(line, s, p5, e);
    SliceSplit(line, s, ne, p5);
    SliceSplit(line, s, ns, ne);
    SliceSplit(line, s, p2, ns);
    SliceSplit(line, s, p1, p2);
  }

  /** A run of class characters, cut out of the line, is all in the class. */
  lemma RunSlice(line: string, lo: nat, hi: nat, cls: CharClass)
    requires lo <= hi <= |line| && RunOf(line, lo, hi, cls)
    ensures AllIn(line[lo..hi], cls)
  {
    forall i | 0 <= i < hi - lo ensures InClass(line[lo..hi][i], cls) {
      assert line[lo..hi][i] == line[lo + i];
    }
  }

  /** The reference of a well-formed match: its name is the capture, its full text the
      placeholder, which occurs in the line. */
  lemma ToRefShape(file: string, lineNo: nat, line: string, m: Match)
    requires WellFormed(line, m)
    ensures IsPlaceholder(ToRef(file, lineNo, line, m).fullText, ToRef(file, lineNo, line, m).name)
    ensures Text.Contains(line, ToRef(file, lineNo, line, m).fullText)
  {
    var ws1 := line[m.start + |Open|..m.nameStart - |Prefix|];
    var ws2 := line[m.nameEnd..m.end - |Close|];
    RunSlice(line, m.start + |Open|, m.nameStart - |Prefix|, Space);
    RunSlice(line, m.nameEnd, m.end - |Close|, Space);
    RunSlice(line, m.nameStart, m.nameEnd, PathChar);
    MatchPieces(line, m);
    assert Text.OccursAt(line, line[m.start..m.end], m.start);
  }

  /** The reference's shape, in the file's terms. */
  ghost predicate ShapedAt(ref: ValueReference, file: string, lines: seq<string>, first: nat)
  {
    && ref.file == file
    && first <= ref.line < first + |lines|
    && IsPlaceholder(ref.fullText, ref.name)
    && Text.Contains(lines[ref.line - first], ref.fullText)
  }

  lemma {:induction false} RefsShape(file: string, lines: seq<string>, first: nat)
    ensures forall k :: 0 <= k < |Refs(file, lines, first)| ==> ShapedAt(Refs(file, lines, first)[k], file, lines, first)
    decreases |lines|
  {
    if |lines| > 0 {
      var here, rest := LineRefs(file, first, lines[0]), Refs(file, lines[1..], first + 1);
      RefsShape(file, lines[1..], first + 1);
      var all := here + rest;
      assert Refs(file, lines, first) == all;
      forall k | 0 <= k < |all| ensures ShapedAt(all[k], file, lines, first) {
        if k < |here| {
          assert all[k] == here[k];
          HereShaped(file, lines, first, k);
        } else {
          assert all[k] == rest[k - |here|];
          RestShaped(all[k], file, lines, first);
        }
      }
    }
  }

  /** References come out ordered by line. */
  lemma {:induction false} RefsOrdered(file: string, lines: seq<string>, first: nat)
    ensures forall j, k :: 0 <= j < k < |Refs(file, lines, first)| ==>
              Refs(file, lines, first)[j].line <= Refs(file, lines, first)[k].line
    decreases |lines|
  {
    if |lines| > 0 {
      var here, rest := LineRefs(file, first, lines[0]), Refs(file, lines[1..], first + 1);
      RefsOrdered(file, lines[1..], first + 1);
      RefsLineBounds(file, lines[1..], first + 1);
      LineRefsOnLine(file, first, lines[0]);
      var all := here + rest;
      assert Refs(file, lines, first) == all;
      forall j, k | 0 <= j < k < |all| ensures all[j].line <= all[k].line {
        if k < |here| {
          assert all[j] == here[j] && all[k] == here[k];
        } else if j < |here| {
          assert all[j] == here[j] && all[k] == rest[k - |here|];
        } else {
          assert all[j] == rest[j - |here|] && all[k] == rest[k - |here|];
        }
      }
    }
  }

  lemma HereShaped(file: string, lines: seq<string>, first: nat, k: nat)
    requires |lines| > 0 && k < |LineRefs(file, first, lines[0])|
    ensures ShapedAt(LineRefs(file, first, lines[0])[k], file, lines, first)
  {
    FindAllWellFormed(lines[0]);
    ToRefShape(file, first, lines[0], FindAll(lines[0], 0)[k]);
  }

  lemma RestShaped(ref: ValueReference, file: string, lines: seq<string>, first: nat)
    requires |lines| > 0 && ShapedAt(ref, file, lines[1..], first + 1)
    ensures ShapedAt(ref, file, lines, first)
  {
    assert lines[1..][ref.line - (first + 1)] == lines[ref.line - first];
  }

  /** Every extracted reference carries the input path, a line number within the file, a
      non-empty name of path characters and, as full text, a placeholder for that name found
      on that line; references come out ordered by line. */
  lemma TemplateParserShape(file: string, content: string)
    ensures TemplateParser(file, content).Success? &&
            var lines := Text.Split(content, '\n');
            var refs := TemplateParser(file, content).value;
            && (forall k :: 0 <= k < |refs| ==> ShapedAt(refs[k], file, lines, 1))
            && (forall j, k :: 0 <= j < k < |refs| ==> refs[j].line <= refs[k].line)
  {
    RefsShape(file, Text.Split(content, '\n'), 1);
    RefsOrdered(file, Text.Split(content, '\n'), 1);
  }

  lemma {:induction false} RefsLineBounds(file: string, lines: seq<string>, first: nat)
    ensures forall k :: 0 <= k < |Refs(file, lines, first)| ==>
              first <= Refs(file, lines, first)[k].line < first + |lines|
    decreases |lines|
  {
    if |lines| > 0 {
      RefsLineBounds(file, lines[1..], first + 1);
    }
  }

  lemma {:induction false} OnLineAppend(a: seq<ValueReference>, b: seq<ValueReference>, n: nat)
    ensures OnLine(a + b, n) == OnLine(a, n) + OnLine(b, n)
    decreases |a|
  {
    if |a| > 0 {
      var x := if a[0].line == n then [a[0]] else [];
      assert (a + b)[0] == a[0];
      assert (a + b)[1..] == a[1..] + b;
      OnLineAppend(a[1..], b, n);
      assert OnLine(a + b, n) == x + OnLine(a[1..] + b, n);
      assert OnLine(a, n) == x + OnLine(a[1..], n);
    } else {
      assert a + b == b;
    }
  }

  lemma {:induction false} OnLineUniform(refs: seq<ValueReference>, lineNo: nat, n: nat)
    requires forall k :: 0 <= k < |refs| ==> refs[k].line == lineNo
    ensures OnLine(refs, n) == if n == lineNo then refs else []
    decreases |refs|
  {
    if |refs| > 0 {
      OnLineUniform(refs[1..], lineNo, n);
    }
  }

  lemma {:induction false} OnLineAbsent(refs: seq<ValueReference>, n: nat)
    requires forall k :: 0 <= k < |refs| ==> refs[k].line != n
    ensures OnLine(refs, n) == []
    decreases |refs|
  {
    if |refs| > 0 {
      OnLineAbsent(refs[1..], n);
    }
  }

  /** Every reference of `refs` is on line `n`. */
  predicate AllOn(refs: seq<ValueReference>, n: nat)
  {
    forall k :: 0 <= k < |refs| ==> refs[k].line == n
  }

  /** A block all on one line contributes to that line alone. */
  lemma OnLineSplit(head: seq<ValueReference>, rest: seq<ValueReference>, lineNo: nat, n: nat)
    requires AllOn(head, lineNo)
    ensures OnLine(head + rest, n) == (if n == lineNo then head else []) + OnLine(rest, n)
  {
    OnLineAppend(head, rest, n);
    OnLineUniform(head, lineNo, n);
  }

  /** The references found on line `n` are those of that line alone. */
  lemma {:induction false} RefsPerLine(file: string, lines: seq<string>, first: nat, n: nat, line: string)
    requires first <= n < first + |lines| && line == lines[n - first]
    ensures OnLine(Refs(file, lines, first), n) == LineRefs(file, n, line)
    decreases |lines|
  {
    if n == first {
      RefsFirstLine(file, lines, first);
    } else {
      assert lines[1..][n - (first + 1)] == line;
      RefsPerLine(file, lines[1..], first + 1, n, line);
      RefsLaterLine(file, lines, first, n);
    }
  }

  /** The first line's references are all the file has on that line. */
  lemma RefsFirstLine(file: string, lines: seq<string>, first: nat)
    requires |lines| > 0
    ensures OnLine(Refs(file, lines, first), first) == LineRefs(file, first, lines[0])
  {
    var here, rest := LineRefs(file, first, lines[0]), Refs(file, lines[1..], first + 1);
    assert Refs(file, lines, first) == here + rest;
    LineRefsOnLine(file, first, lines[0]);
    RefsLineBounds(file, lines[1..], first + 1);
    OnLineFirst(here, rest, first);
  }

  /** The first line adds nothing to any other line. */
  lemma RefsLaterLine(file: string, lines: seq<string>, first: nat, n: nat)
    requires |lines| > 0 && n != first
    ensures OnLine(Refs(file, lines, first), n) == OnLine(Refs(file, lines[1..], first + 1), n)
  {
    var here, rest := LineRefs(file, first, lines[0]), Refs(file, lines[1..], first + 1);
    assert Refs(file, lines, first) == here + rest;
    LineRefsOnLine(file, first, lines[0]);
    OnLineSplit(here, rest, first, n);
    assert [] + OnLine(rest, n) == OnLine(rest, n);
  }

  /** The first block, when everything after it lies on later lines. */
  lemma OnLineFirst(here: seq<ValueReference>, rest: seq<ValueReference>, n: nat)
    requires AllOn(here, n)
    requires forall k :: 0 <= k < |rest| ==> n + 1 <= rest[k].line
    ensures OnLine(here + rest, n) == here
  {
    OnLineSplit(here, rest, n, n);
    OnLineAbsent(rest, n);
    assert here + [] == here;
  }

  lemma LineRefsOnLine(file: string, lineNo: nat, line: string)
    ensures AllOn(LineRefs(file, lineNo, line), lineNo)
  {
  }

  /** Line by line, the references are exactly one per match of that line's leftmost
      scan, in left-to-right order; nothing is merged or dropped. */
  lemma TemplateParserPerLine(file: string, content: string, i: nat)
    requires i < |Text.Split(content, '\n')|
    ensures TemplateParser(file, content).Success? &&
            OnLine(TemplateParser(file, content).value, i + 1) ==
            MatchRefs(file, i + 1, Text.Split(content, '\n')[i], FindAll(Text.Split(content, '\n')[i], 0))
  {
    RefsPerLine(file, Text.Split(content, '\n'), 1, i + 1, Text.Split(content, '\n')[i]);
  }

  /** A well-formed match in a piece of a text is a well-formed match of the text, shifted. */
  lemma WellFormedShift(big: string, small: string, o: nat, m: Match)
    requires Text.OccursAt(big, small, o) && WellFormed(small, m)
    ensures WellFormed(big, Match(m.start + o, m.nameStart + o, m.nameEnd + o, m.end + o))
  {
    var m' := Match(m.start + o, m.nameStart + o, m.nameEnd + o, m.end + o);
    SliceShift(big, small, o, m.start, m.start + |Open|, m'.start, m'.start + |Open|);
    SliceShift(big, small, o, m.nameStart - |Prefix|, m.nameStart, m'.nameStart - |Prefix|, m'.nameStart);
    SliceShift(big, small, o, m.end - |Close|, m.end, m'.end - |Close|, m'.end);
    RunShift(big, small, o, m.start + |Open|, m.nameStart - |Prefix|, m'.start + |Open|, m'.nameStart - |Prefix|, Space);
    RunShift(big, small, o, m.nameStart, m.nameEnd, m'.nameStart, m'.nameEnd, PathChar);
    RunShift(big, small, o, m.nameEnd, m.end - |Close|, m'.nameEnd, m'.end - |Close|, Space);
    assert InBounds(big, m');
    assert m'.start + |Open| + |Prefix| <= m'.nameStart < m'.nameEnd;
    assert m'.nameEnd + |Close| <= m'.end <= |big|;
  }

  /** A slice of an occurring piece is the same slice of the text, shifted. */
  lemma SliceShift(big: string, small: string, o: nat, lo: nat, hi: nat, lo': nat, hi': nat)
    requires Text.OccursAt(big, small, o) && lo <= hi <= |small| && lo' == lo + o && hi' == hi + o
    ensures big[lo'..hi'] == small[lo..hi]
  {
    forall j | 0 <= j < hi - lo ensures big[lo'..hi'][j] == small[lo..hi][j] {
      assert big[o..o + |small|][lo + j] == big[lo' + j];
    }
  }

  /** A run in an occurring piece is a run of the text, shifted. */
  lemma RunShift(big: string, small: string, o: nat, lo: nat, hi: nat, lo': nat, hi': nat, cls: CharClass)
    requires Text.OccursAt(big, small, o) && lo <= hi <= |small| && lo' == lo + o && hi' == hi + o
    requires RunOf(small, lo, hi, cls)
    ensures RunOf(big, lo', hi', cls)
  {
    forall j | lo' <= j < hi' ensures InClass(big[j], cls) {
      assert big[o..o + |small|][j - o] == big[j];
    }
  }

  lemma {:induction false} NoMatchNoRefs(file: string, lines: seq<string>, first: nat)
    requires forall i, m :: 0 <= i < |lines| ==> !WellFormed(lines[i], m)
    ensures Refs(file, lines, first) == []
    decreases |lines|
  {
    if |lines| > 0 {
      FindAllScans(lines[0], 0);
      NoMatchNoRefs(file, lines[1..], first + 1);
    }
  }

  /** Text holding no placeholder yields an empty list and no error. */
  lemma NoPlaceholderNoReferences(file: string, content: string)
    requires forall m :: !WellFormed(content, m)
    ensures TemplateParser(file, content) == Success([])
  {
    var lines := Text.Split(content, '\n');
    forall i, m | 0 <= i < |lines| ensures !WellFormed(lines[i], m) {
      Text.PieceOccurs(lines, '\n', i);
      var o :| Text.OccursAt(content, lines[i], o);
      if WellFormed(lines[i], m) {
        WellFormedShift(content, lines[i], o, m);
      }
    }
    NoMatchNoRefs(file, lines, 1);
  }
}

=== FILE: loading.dfy ===
/** loadAndMergeValues: the chart's own values.yaml first, then each additional values file in
    the order given, each merged over what came before. The file system and the YAML decoder
    are outside the model: their outcomes arrive as data. */
module Loading {
  import opened Wrappers
  import opened Values

  /** What the values loader gives back for one file: a decode or read error, or a document
      that may be empty (a nil mapping). */
  datatype Load = LoadError(err: string) | Parsed(doc: Option<Mapping>)

  /** The chart's values.yaml as seen by `os.Stat`: not there, not inspectable, or present and
      handed to the loader. */
  datatype ChartValues = Absent | StatError(err: string) | Present(load: Load)

  /** An additional values file named on the command line, with its load outcome. */
  datatype ExtraFile = ExtraFile(path: string, load: Load)

  /** The document a load contributes: none for an error or an empty file. */
  function DocOf(load: Load): seq<Mapping>
  {
    if load.Parsed? && load.doc.Some? then [load.doc.value] else []
  }

  function ChartDocs(chart: ChartValues): seq<Mapping>
  {
    if chart.Present? then DocOf(chart.load) else []
  }

  function ChartErrors(chart: ChartValues): seq<string>
  {
    match chart
    case Absent => []
    case StatError(e) => ["Error checking values.yaml: " + e]
    case Present(LoadError(e)) => ["Error loading values.yaml: " + e]
    case Present(Parsed(_)) => []
  }

  /** An additional file that names the chart's own values.yaml is skipped. */
  predicate Skipped(chartValuesPath: string, f: ExtraFile)
  {
    f.path == chartValuesPath
  }

  function ExtraDocs(chartValuesPath: string, extras: seq<ExtraFile>): seq<Mapping>
  {
    if |extras| == 0 then []
    else
      var f := extras[|extras| - 1];
      ExtraDocs(chartValuesPath, extras[..|extras| - 1]) +
        (if Skipped(chartValuesPath, f) then [] else DocOf(f.load))
  }

  function ExtraErrors(chartValuesPath: string, extras: seq<ExtraFile>): seq<string>
  {
    if |extras| == 0 then []
    else
      var f := extras[|extras| - 1];
      ExtraErrors(chartValuesPath, extras[..|extras| - 1]) +
        (if !Skipped(chartValuesPath, f) && f.load.LoadError?
         then ["Error loading additional values file " + f.path + ": " + f.load.err]
         else [])
  }

  /** Every document that reaches the merge, in merge order. */
  function Docs(chartValuesPath: string, chart: ChartValues, extras: seq<ExtraFile>): seq<Mapping>
  {
    ChartDocs(chart) + ExtraDocs(chartValuesPath, extras)
  }

  /** Every error message, in the order they are reported. */
  function Errors(chartValuesPath: string, chart: ChartValues, extras: seq<ExtraFile>): seq<string>
  {
    ChartErrors(chart) + ExtraErrors(chartValuesPath, extras)
  }

  /** The documents merged left to right, starting from the empty mapping. */
  function MergeAll(docs: seq<Mapping>): Mapping
  {
    if |docs| == 0 then map[] else Merge(MergeAll(docs[..|docs| - 1]), docs[|docs| - 1])
  }

  /** The loader as written: one pass over the files, merging in place and collecting errors. */
  method LoadAndMergeValues(chartValuesPath: string, chart: ChartValues, extras: seq<ExtraFile>)
    returns (values: Mapping, errors: seq<string>)
    ensures values == MergeAll(Docs(chartValuesPath, chart, extras))
    ensures errors == Errors(chartValuesPath, chart, extras)
    ensures errors == [] <==> NoLoadFailure(chartValuesPath, chart, extras)
  {
    values, errors := LoadChart(chart);
    var i := 0;
    while i < |extras|
      invariant 0 <= i <= |extras|
      invariant values == MergeAll(ChartDocs(chart) + ExtraDocs(chartValuesPath, extras[..i]))
      invariant errors == ChartErrors(chart) + ExtraErrors(chartValuesPath, extras[..i])
    {
      values, errors := LoadExtra(chartValuesPath, chart, extras, i, values, errors);
      i := i + 1;
    }
    assert extras[..i] == extras;
    ErrorsEmpty(chartValuesPath, chart, extras);
  }

  /** The chart's own values.yaml: inspected, then loaded when present. */
  method LoadChart(chart: ChartValues) returns (values: Mapping, errors: seq<string>)
    ensures values == MergeAll(ChartDocs(chart))
    ensures errors == ChartErrors(chart)
    ensures errors == [] <==> !chart.StatError? && !(chart.Present? && chart.load.LoadError?)
  {
    values := map[];
    errors := [];
    match chart {
      case Absent =>
      case StatError(e) =>
        errors := errors + ["Error checking values.yaml: " + e];
      case Present(load) =>
        if load.LoadError? {
          errors := errors + ["Error loading values.yaml: " + load.err];
        } else if load.doc.Some? {
          values := MergeMaps(values, load.doc.value);
          assert [load.doc.value][..0] == [];
        }
    }
  }

  /** One additional file: skipped when it names the chart's values.yaml, else loaded and
      merged over the values so far, or its load error recorded. */
  method LoadExtra(chartValuesPath: string, chart: ChartValues, extras: seq<ExtraFile>, i: nat,
                   values: Mapping, errors: seq<string>)
    returns (values': Mapping, errors': seq<string>)
    requires i < |extras|
    requires values == MergeAll(ChartDocs(chart) + ExtraDocs(chartValuesPath, extras[..i]))
    requires errors == ChartErrors(chart) + ExtraErrors(chartValuesPath, extras[..i])
    ensures values' == MergeAll(ChartDocs(chart) + ExtraDocs(chartValuesPath, extras[..i + 1]))
    ensures errors' == ChartErrors(chart) + ExtraErrors(chartValuesPath, extras[..i + 1])
  {
    var f := extras[i];
    ExtraStep(chartValuesPath, chart, extras, i);
    values', errors' := values, errors;
    if f.path == chartValuesPath {
    } else if f.load.LoadError? {
      errors' := errors + ["Error loading additional values file " + f.path + ": " + f.load.err];
    } else if f.load.doc.Some? {
      values' := MergeMaps(values, f.load.doc.value);
    }
  }

  /** What one more additional file adds to the documents and to the errors. */
  lemma ExtraStep(chartValuesPath: string, chart: ChartValues, extras: seq<ExtraFile>, i: nat)
    requires i < |extras|
    ensures var f := extras[i];
            var before := ChartDocs(chart) + ExtraDocs(chartValuesPath, extras[..i]);
            MergeAll(ChartDocs(chart) + ExtraDocs(chartValuesPath, extras[..i + 1])) ==
              (if Skipped(chartValuesPath, f) || !f.load.Parsed? || f.load.doc.None? then MergeAll(before)
               else Merge(MergeAll(before), f.load.doc.value))
    ensures var f := extras[i];
            ExtraErrors(chartValuesPath, extras[..i + 1]) ==
              ExtraErrors(chartValuesPath, extras[..i]) +
              (if !Skipped(chartValuesPath, f) && f.load.LoadError?
               then ["Error loading additional values file " + f.path + ": " + f.load.err]
               else [])
  {
    var f := extras[i];
    assert extras[..i + 1][..i] == extras[..i] && extras[..i + 1][i] == f;
    var before := ChartDocs(chart) + ExtraDocs(chartValuesPath, extras[..i]);
    var added := if Skipped(chartValuesPath, f) then [] else DocOf(f.load);
    assert ExtraDocs(chartValuesPath, extras[..i + 1]) == ExtraDocs(chartValuesPath, extras[..i]) + added;
    assert ChartDocs(chart) + ExtraDocs(chartValuesPath, extras[..i + 1]) == before + added;
    if added == [] {
      assert before + added == before;
    } else {
      MergeAllAppend(before, added[0]);
      assert added == [added[0]];
    }
  }

  /** No file that is read fails to load or to be inspected. */
  predicate NoLoadFailure(chartValuesPath: string, chart: ChartValues, extras: seq<ExtraFile>)
  {
    !chart.StatError? && !(chart.Present? && chart.load.LoadError?) &&
    forall i :: 0 <= i < |extras| && !Skipped(chartValuesPath, extras[i]) ==> !extras[i].load.LoadError?
  }

  /** The error list is empty exactly when every file that is read loads. */
  lemma {:induction false} ErrorsEmpty(chartValuesPath: string, chart: ChartValues, extras: seq<ExtraFile>)
    ensures Errors(chartValuesPath, chart, extras) == [] <==> NoLoadFailure(chartValuesPath, chart, extras)
  {
    ExtraErrorsEmpty(chartValuesPath, extras);
  }

  lemma {:induction false} ExtraErrorsEmpty(chartValuesPath: string, extras: seq<ExtraFile>)
    ensures ExtraErrors(chartValuesPath, extras) == [] <==>
            forall i :: 0 <= i < |extras| && !Skipped(chartValuesPath, extras[i]) ==> !extras[i].load.LoadError?
    decreases |extras|
  {
    if |extras| > 0 {
      var init := extras[..|extras| - 1];
      ExtraErrorsEmpty(chartValuesPath, init);
      assert forall i :: 0 <= i < |init| ==> init[i] == extras[i];
    }
  }

  /** One error per additional file that is read and fails, and none otherwise. */
  lemma {:induction false} ExtraErrorsCount(chartValuesPath: string, extras: seq<ExtraFile>)
    ensures |ExtraErrors(chartValuesPath, extras)| ==
            |set i | 0 <= i < |extras| && !Skipped(chartValuesPath, extras[i]) && extras[i].load.LoadError?|
    decreases |extras|
  {
    if |extras| > 0 {
      var n := |extras| - 1;
      var init := extras[..n];
      ExtraErrorsCount(chartValuesPath, init);
      var before := set i | 0 <= i < |init| && !Skipped(chartValuesPath, init[i]) && init[i].load.LoadError?;
      var after := set i | 0 <= i < |extras| && !Skipped(chartValuesPath, extras[i]) && extras[i].load.LoadError?;
      if !Skipped(chartValuesPath, extras[n]) && extras[n].load.LoadError? {
        assert after == before + {n};
      } else {
        assert after == before;
      }
    }
  }

  /** Additional files are processed one after the other: the lists of documents and of
      errors distribute over a split of the file list. */
  lemma {:induction false} ExtrasAppend(chartValuesPath: string, a: seq<ExtraFile>, b: seq<ExtraFile>)
    ensures ExtraDocs(chartValuesPath, a + b) == ExtraDocs(chartValuesPath, a) + ExtraDocs(chartValuesPath, b)
    ensures ExtraErrors(chartValuesPath, a + b) == ExtraErrors(chartValuesPath, a) + ExtraErrors(chartValuesPath, b)
    decreases |b|
  {
    if |b| > 0 {
      var n := |b| - 1;
      assert (a + b)[..|a + b| - 1] == a + b[..n];
      assert (a + b)[|a + b| - 1] == b[n];
      ExtrasAppend(chartValuesPath, a, b[..n]);
    } else {
      assert a + b == a;
    }
  }

  /** Merging documents one after another distributes over a split of the list. */
  lemma {:induction false} MergeAllAppend(docs: seq<Mapping>, d: Mapping)
    ensures MergeAll(docs + [d]) == Merge(MergeAll(docs), d)
  {
    assert (docs + [d])[..|docs|] == docs;
  }

  /** The merged values have exactly the top-level keys of all documents. */
  lemma {:induction false} MergeAllKeys(docs: seq<Mapping>)
    ensures forall k :: k in MergeAll(docs) <==> exists i :: 0 <= i < |docs| && k in docs[i]
    decreases |docs|
  {
    if |docs| > 0 {
      var n := |docs| - 1;
      var init := docs[..n];
      MergeAllKeys(init);
      assert forall i :: 0 <= i < n ==> init[i] == docs[i];
      forall k | k in MergeAll(docs)
        ensures exists i :: 0 <= i < |docs| && k in docs[i]
      {
        if k !in docs[n] {
          assert k in Merge(MergeAll(init), docs[n]);
          assert k in MergeAll(init);
          var i :| 0 <= i < |init| && k in init[i];
          assert k in docs[i];
        }
      }
      forall k, i | 0 <= i < |docs| && k in docs[i]
        ensures k in MergeAll(docs)
      {
        if i < n {
          assert k in init[i];
        }
      }
    }
  }

  /** Document `i` defines the path and no later document cuts it. */
  predicate Survives(keys: seq<string>, docs: seq<Mapping>, i: int)
  {
    0 <= i < |docs| && Resolves(keys, docs[i]) && forall j :: i < j < |docs| ==> Shielded(keys, docs[j])
  }

  /** A path resolves in the merged values exactly when some document defines it and no later
      document replaces a mapping along the path by a non-mapping value. */
  lemma ResolvesInMergeAll(keys: seq<string>, docs: seq<Mapping>)
    ensures Resolves(keys, MergeAll(docs)) <==> exists i :: Survives(keys, docs, i)
  {
    if Resolves(keys, MergeAll(docs)) {
      MergeAllResolvesOnly(keys, docs);
    }
    if exists i :: Survives(keys, docs, i) {
      var i :| Survives(keys, docs, i);
      SurvivorResolves(keys, docs, i);
    }
  }

  lemma {:induction false} MergeAllResolvesOnly(keys: seq<string>, docs: seq<Mapping>)
    requires Resolves(keys, MergeAll(docs))
    ensures exists i :: Survives(keys, docs, i)
    decreases |docs|
  {
    var n := |docs| - 1;
    var init := docs[..n];
    ResolvesInMerge(keys, MergeAll(init), docs[n]);
    if Resolves(keys, docs[n]) {
      assert Survives(keys, docs, n);
    } else {
      MergeAllResolvesOnly(keys, init);
      var i :| Survives(keys, init, i);
      forall j | i < j < |docs| ensures Shielded(keys, docs[j]) {
        if j < n { assert init[j] == docs[j]; }
      }
      assert init[i] == docs[i];
      assert Survives(keys, docs, i);
    }
  }

  lemma {:induction false} SurvivorResolves(keys: seq<string>, docs: seq<Mapping>, i: int)
    requires Survives(keys, docs, i)
    ensures Resolves(keys, MergeAll(docs))
    decreases |docs|
  {
    var n := |docs| - 1;
    var init := docs[..n];
    ResolvesInMerge(keys, MergeAll(init), docs[n]);
    if i < n {
      forall j | i < j < |init| ensures Shielded(keys, init[j]) {
        assert init[j] == docs[j];
      }
      assert init[i] == docs[i];
      SurvivorResolves(keys, init, i);
      assert Shielded(keys, docs[n]);
    }
  }

  /** A non-mapping value that the last document holds at a path is the merged value there. */
  lemma LastLeafWins(keys: seq<string>, docs: seq<Mapping>, x: Value)
    requires |docs| > 0 && |keys| > 0
    requires Lookup(keys, Map(docs[|docs| - 1])) == Some(x) && !x.Map?
    ensures Lookup(keys, Map(MergeAll(docs))) == Some(x)
  {
    SourceLeafWins(keys, MergeAll(docs[..|docs| - 1]), docs[|docs| - 1], x);
  }

  /** Naming the same additional file twice in a row gives the same values as naming it once. */
  lemma RepeatedFileHarmless(chartValuesPath: string, chart: ChartValues, extras: seq<ExtraFile>, f: ExtraFile)
    ensures MergeAll(Docs(chartValuesPath, chart, extras + [f, f])) ==
            MergeAll(Docs(chartValuesPath, chart, extras + [f]))
  {
    var once := extras + [f];
    var twice := extras + [f, f];
    assert twice[..|twice| - 1] == once;
    var base := Docs(chartValuesPath, chart, once);
    var tail := if Skipped(chartValuesPath, f) then [] else DocOf(f.load);
    assert Docs(chartValuesPath, chart, twice) == base + tail;
    if tail != [] {
      MergeAllAppend(base, tail[0]);
      assert base + tail == base + [tail[0]];
      var prev := Docs(chartValuesPath, chart, extras);
      assert base == prev + [tail[0]] by {
        assert once[..|once| - 1] == extras;
      }
      MergeAllAppend(prev, tail[0]);
      MergeAbsorbs(MergeAll(prev), tail[0]);
    } else {
      assert base + tail == base;
    }
  }

  /** Overriding a nested scalar and adding a sibling: `{service: {port: 80}}` followed by
      `{service: {port: 8080, name: web}}` yields the second file's service block. */
  lemma OverrideExample()
    ensures
      var first := map["service" := Map(map["port" := Scalar("80")])];
      var second := map["service" := Map(map["port" := Scalar("8080"), "name" := Scalar("web")])];
      MergeAll([first, second]) == second
  {
    var first := map["service" := Map(map["port" := Scalar("80")])];
    var second := map["service" := Map(map["port" := Scalar("8080"), "name" := Scalar("web")])];
    assert [first, second][..1] == [first];
    assert [first][..0] == [];
    assert MergeAll([first]) == first;
    var inner := Merge(map["port" := Scalar("80")], map["port" := Scalar("8080"), "name" := Scalar("web")]);
    assert inner == map["port" := Scalar("8080"), "name" := Scalar("web")];
  }
}

=== FILE: models.dfy ===
/** The record types of internal/models/models.go that the checker produces and consumes. */
module Models {

  /** One occurrence of a `{{ .Values.<path> }}` placeholder in a template file. */
  datatype ValueReference = ValueReference(
    name: string,      // the dotted path after `.Values.`
    file: string,      // the template file it was found in
    line: nat,         // 1-based line number
    fullText: string   // the whole matched placeholder text
  )
}

=== FILE: releasename.dfy ===
/** isValidReleaseName: the release-name pattern
    `^[a-z0-9]([-a-z0-9]*[a-z0-9])?(\.[a-z0-9]([-a-z0-9]*[a-z0-9])?)*$`, i.e. dot-separated
    labels of the hostname-label shape of section 2.1 of RFC 1123 without its length limits. */
module ReleaseName {
  import Text

  predicate Alnum(c: char)
  {
    'a' <= c <= 'z' || '0' <= c <= '9'
  }

  /** Characters the pattern can match at all. */
  predicate Allowed(c: char)
  {
    Alnum(c) || c == '-' || c == '.'
  }

  /** One label: non-empty, lower-case letters, digits and `-`, starting and ending with a
      letter or digit. */
  predicate ValidLabel(l: string)
  {
    |l| > 0 && Alnum(l[0]) && Alnum(l[|l| - 1]) &&
    forall i :: 0 <= i < |l| ==> Alnum(l[i]) || l[i] == '-'
  }

  /** The pattern as conditions on single positions: every character allowed, the first and
      last a letter or digit, and every dot between a letter or digit on either side. */
  predicate LocallyValid(s: string)
  {
    && |s| > 0 && Alnum(s[0]) && Alnum(s[|s| - 1])
    && (forall i :: 0 <= i < |s| ==> Allowed(s[i]))
    && (forall i :: 0 < i < |s| && s[i] == '.' ==> Alnum(s[i - 1]))
    && (forall i :: 0 <= i < |s| - 1 && s[i] == '.' ==> Alnum(s[i + 1]))
  }

  /** A name matches exactly when every dot-separated label is valid. */
  predicate ValidName(s: string)
  {
    var labels := Text.Split(s, '.');
    forall i :: 0 <= i < |labels| ==> ValidLabel(labels[i])
  }

  /** The matcher: one left-to-right pass remembering the previous character (a dot stands in
      before the first one, since a name starts the way a label after a dot does). */
  method IsValidReleaseName(name: string) returns (ok: bool)
    ensures ok <==> LocallyValid(name)
    ensures ok <==> ValidName(name)
  {
    LocalIffLabels(name);
    if |name| == 0 {
      return false;
    }
    var prev := '.';
    var i := 0;
    while i < |name|
      invariant 0 <= i <= |name|
      invariant i == 0 ==> prev == '.'
      invariant i > 0 ==> prev == name[i - 1] && Alnum(name[0])
      invariant forall k :: 0 <= k < i ==> Allowed(name[k])
      invariant forall k :: 0 < k < i && name[k] == '.' ==> Alnum(name[k - 1])
      invariant forall k :: 0 <= k < i - 1 && name[k] == '.' ==> Alnum(name[k + 1])
    {
      var c := name[i];
      if !Allowed(c) || (prev == '.' && !Alnum(c)) || (c == '.' && !Alnum(prev)) {
        return false;
      }
      prev := c;
      i := i + 1;
    }
    ok := Alnum(prev);
  }

  /** Splitting off the first label: a name `x.y` is locally valid exactly when `x` is a valid
      label and `y` is locally valid. */
  lemma DotSplit(x: string, y: string)
    requires '.' !in x
    ensures LocallyValid(x + ['.'] + y) <==> ValidLabel(x) && LocallyValid(y)
  {
    if LocallyValid(x + ['.'] + y) {
      DotSplitHead(x, y);
      DotSplitTail(x, y);
    }
    if ValidLabel(x) && LocallyValid(y) {
      DotJoin(x, y);
    }
  }

  lemma DotSplitHead(x: string, y: string)
    requires '.' !in x && LocallyValid(x + ['.'] + y)
    ensures ValidLabel(x)
  {
    var s := x + ['.'] + y;
    var n := |x|;
    assert s[n] == '.' && Alnum(s[0]);
    assert s[0] == x[0] && s[n - 1] == x[n - 1];
    forall j | 0 <= j < n ensures Alnum(x[j]) || x[j] == '-' {
      assert s[j] == x[j] && Allowed(s[j]);
      assert x[j] in x;
    }
  }

  lemma DotSplitTail(x: string, y: string)
    requires LocallyValid(x + ['.'] + y)
    ensures LocallyValid(y)
  {
    var s := x + ['.'] + y;
    var n := |x|;
    assert s[n] == '.';
    assert forall j :: 0 <= j < |y| ==> s[n + 1 + j] == y[j];
    assert Alnum(s[|s| - 1]);
    assert s[|s| - 1] == y[|y| - 1];
    forall j | 0 < j < |y| && y[j] == '.' ensures Alnum(y[j - 1]) {
      assert s[n + 1 + j] == '.';
    }
    forall j | 0 <= j < |y| - 1 && y[j] == '.' ensures Alnum(y[j + 1]) {
      assert s[n + 1 + j] == '.';
    }
  }

  lemma DotJoin(x: string, y: string)
    requires '.' !in x && ValidLabel(x) && LocallyValid(y)
    ensures LocallyValid(x + ['.'] + y)
  {
    var s := x + ['.'] + y;
    var n := |x|;
    assert forall j :: 0 <= j < n ==> s[j] == x[j] && x[j] in x;
    assert s[n] == '.';
    assert forall j :: 0 <= j < |y| ==> s[n + 1 + j] == y[j];
    assert s[|s| - 1] == y[|y| - 1];
    forall i | 0 < i < |s| && s[i] == '.' ensures Alnum(s[i - 1]) {
      if i > n + 1 {
        assert s[i] == y[i - n - 1] && s[i - 1] == y[i - n - 2];
      }
    }
    forall i | 0 <= i < |s| - 1 && s[i] == '.' ensures Alnum(s[i + 1]) {
      if i > n {
        assert s[i] == y[i - n - 1] && s[i + 1] == y[i - n];
      }
    }
  }

  /** A label list joined with dots is locally valid exactly when every label is valid. */
  lemma {:induction false} JoinedLabels(parts: seq<string>)
    requires |parts| >= 1 && Text.SeparatorFree(parts, '.')
    ensures LocallyValid(Text.Join(parts, '.')) <==> forall i :: 0 <= i < |parts| ==> ValidLabel(parts[i])
    decreases |parts|
  {
    if |parts| == 1 {
      var l := parts[0];
      assert '.' !in l;
      assert LocallyValid(l) <==> ValidLabel(l) by {
        forall i | 0 <= i < |l| ensures l[i] != '.' { assert l[i] in l; }
      }
    } else {
      var rest := parts[1..];
      assert Text.SeparatorFree(rest, '.') by {
        forall i | 0 <= i < |rest| ensures '.' !in rest[i] { assert rest[i] == parts[i + 1]; }
      }
      JoinedLabels(rest);
      assert '.' !in parts[0];
      DotSplit(parts[0], Text.Join(rest, '.'));
      assert forall i :: 0 < i < |parts| ==> parts[i] == rest[i - 1];
    }
  }

  /** The two readings of the pattern agree on every string. */
  lemma LocalIffLabels(s: string)
    ensures LocallyValid(s) <==> ValidName(s)
  {
    Text.SplitSeparatorFree(s, '.');
    JoinedLabels(Text.Split(s, '.'));
  }

  /** `my-release.v1` matches; the empty name, a leading dash, an empty label and an upper-case
      letter do not. */
  lemma ReleaseNameExamples()
    ensures LocallyValid("my-release.v1")
    ensures !LocallyValid("") && !LocallyValid("-web") && !LocallyValid("a..b") && !LocallyValid("Web")
  {
    var good := "my-release.v1";
    assert good[2] == '-' && good[10] == '.';
    forall i | 0 < i < |good| && good[i] == '.' ensures Alnum(good[i - 1]) {
      assert i == 10;
    }
    assert "a..b"[1] == '.' && "a..b"[2] == '.';
  }
}

=== FILE: scan.dfy ===
/** ScanHelmChart and the helpers whose outputs it combines. Every external step (reading
    Chart.yaml, the `helm` subprocesses, the file system walk, the values loader) is an input
    describing what that step reported. */
module Scan {
  import opened Wrappers
  import opened Models
  import opened Values
  import Text
  import Extractor
  import Checker
  import Loading

  // ---- parseErrorLogs ----------------------------------------------------------------------

  const ErrorTag: string := "[ERROR]"

  predicate IsErrorLine(line: string)
  {
    Text.Contains(line, ErrorTag)
  }

  /** The lines that mention `[ERROR]`, verbatim: each such line kept as often as it occurs,
      every other line dropped. */
  function ErrorLines(lines: seq<string>): (r: seq<string>)
    ensures forall i :: 0 <= i < |r| ==> IsErrorLine(r[i])
    ensures forall l :: multiset(r)[l] == if IsErrorLine(l) then multiset(lines)[l] else 0
  {
    if |lines| == 0 then []
    else
      assert lines == [lines[0]] + lines[1..];
      (if IsErrorLine(lines[0]) then [lines[0]] else []) + ErrorLines(lines[1..])
  }

  /** parseErrorLogs: the output split on `"\n"`, filtered to the error lines. */
  function ParseErrorLogs(output: string): (r: seq<string>)
    ensures forall i :: 0 <= i < |r| ==> IsErrorLine(r[i])
    ensures forall l :: multiset(r)[l] == if IsErrorLine(l) then multiset(Text.Split(output, '\n'))[l] else 0
  {
    ErrorLines(Text.Split(output, '\n'))
  }

  /** Filtering keeps the original order: it distributes over concatenation. */
  lemma {:induction false} ErrorLinesAppend(a: seq<string>, b: seq<string>)
    ensures ErrorLines(a + b) == ErrorLines(a) + ErrorLines(b)
    decreases |a|
  {
    if |a| == 0 {
      assert a + b == b;
    } else {
      assert (a + b)[1..] == a[1..] + b;
      ErrorLinesAppend(a[1..], b);
    }
  }

  /** A single line is kept exactly when it mentions `[ERROR]`; with `ErrorLinesAppend` this
      fixes the result on every list of lines, order included. */
  lemma ErrorLinesOne(line: string)
    ensures ErrorLines([line]) == if IsErrorLine(line) then [line] else []
  {
    assert [line][1..] == [];
  }

  /** Two chunks of output joined by a newline give the error lines of each, in order. */
  lemma ParseErrorLogsAppend(a: string, b: string)
    ensures ParseErrorLogs(a + "\n" + b) == ParseErrorLogs(a) + ParseErrorLogs(b)
  {
    Text.SplitAppend(a, b, '\n');
    ErrorLinesAppend(Text.Split(a, '\n'), Text.Split(b, '\n'));
  }

  /** Output without a newline is one line, kept whole exactly when it mentions `[ERROR]`. */
  lemma ParseErrorLogsLine(line: string)
    requires '\n' !in line
    ensures ParseErrorLogs(line) == if IsErrorLine(line) then [line] else []
  {
    Text.SplitNoSeparator(line, '\n');
  }

  /** Output that never mentions `[ERROR]` yields no error lines. */
  lemma NoTagNoErrors(output: string)
    requires !Text.Contains(output, ErrorTag)
    ensures ParseErrorLogs(output) == []
  {
    var lines := Text.Split(output, '\n');
    var r := ErrorLines(lines);
    if r != [] {
      assert r[0] in multiset(r);
      assert lines[..] == lines;
      assert r[0] in multiset(lines);
      var i :| 0 <= i < |lines| && lines[i] == r[0];
      Text.PieceOccurs(lines, '\n', i);
      var o :| Text.OccursAt(output, lines[i], o);
      var p :| Text.OccursAt(lines[i], ErrorTag, p);
      Text.OccursWithin(output, lines[i], ErrorTag, o, p);
      assert false;
    }
  }

  // ---- handleDependencies ------------------------------------------------------------------

  /** What the dependency step's external calls reported: reading Chart.yaml (whether it lists
      dependencies, or the read error), creating the temporary cache directory, and
      `helm dependency update`. The last two only matter when there are dependencies. */
  datatype DependencyRun = DependencyRun(
    chartYaml: Result<bool, string>,
    tempDirError: Option<string>,
    updateError: Option<string>)

  /** Dependencies are fine when Chart.yaml reads and, if it lists any, both the cache directory
      and the update succeed. */
  predicate DependenciesOk(d: DependencyRun)
  {
    d.chartYaml.Success? && (d.chartYaml.value ==> d.tempDirError.None? && d.updateError.None?)
  }

  /** handleDependencies: success with no messages, or failure with the first step's message. */
  function HandleDependencies(d: DependencyRun): (r: (bool, seq<string>))
    ensures r.0 <==> DependenciesOk(d)
    ensures r.0 <==> r.1 == []
    ensures |r.1| <= 1
  {
    if d.chartYaml.Failure? then (false, ["Error reading Chart.yaml: " + d.chartYaml.error])
    else if d.chartYaml.value && d.tempDirError.Some? then (false, ["Error creating temp cache dir: " + d.tempDirError.value])
    else if d.chartYaml.value && d.updateError.Some? then (false, ["Error updating dependencies: " + d.updateError.value])
    else (true, [])
  }

  /** Without dependencies the cache directory and the update are never consulted. */
  lemma NoDependenciesNoUpdate(d: DependencyRun, e: DependencyRun)
    requires d.chartYaml == Success(false) && e.chartYaml == Success(false)
    ensures HandleDependencies(d) == HandleDependencies(e) == (true, [])
  {
  }

  // ---- checkValuesFilesExistence -----------------------------------------------------------

  /** checkValuesFilesExistence: one message per values file that does not exist, in order.
      Only non-existence counts; `missing` is the set of paths `os.Stat` reports as absent. */
  function MissingFiles(paths: seq<string>, missing: set<string>): (r: seq<string>)
    ensures |r| <= |paths|
    ensures r == [] <==> forall i :: 0 <= i < |paths| ==> paths[i] !in missing
    ensures forall i :: 0 <= i < |r| ==> exists k :: 0 <= k < |paths| && paths[k] in missing &&
                                                     r[i] == "Values file does not exist: " + paths[k]
  {
    if |paths| == 0 then []
    else
      var here := if paths[0] in missing then ["Values file does not exist: " + paths[0]] else [];
      var rest := MissingFiles(paths[1..], missing);
      assert forall k :: 0 < k < |paths| ==> paths[k] == paths[1..][k - 1];
      assert forall i :: 0 <= i < |rest| ==> (here + rest)[|here| + i] == rest[i];
      here + rest
  }

  /** The messages of `a + b` are those of `a` followed by those of `b`: files are reported in
      the order they are given. */
  lemma {:induction false} MissingFilesAppend(a: seq<string>, b: seq<string>, missing: set<string>)
    ensures MissingFiles(a + b, missing) == MissingFiles(a, missing) + MissingFiles(b, missing)
    decreases |a|
  {
    if |a| == 0 {
      assert a + b == b;
    } else {
      assert (a + b)[1..] == a[1..] + b;
      assert (a + b)[0] == a[0];
      MissingFilesAppend(a[1..], b, missing);
    }
  }

  /** Every values file that does not exist gets its message. */
  lemma {:induction false} MissingFileReported(paths: seq<string>, missing: set<string>, i: nat)
    requires i < |paths| && paths[i] in missing
    ensures "Values file does not exist: " + paths[i] in MissingFiles(paths, missing)
    decreases |paths|
  {
    if i > 0 {
      assert paths[1..][i - 1] == paths[i];
      MissingFileReported(paths[1..], missing, i - 1);
    }
  }

  /** A single file: its message exactly when it does not exist. */
  lemma MissingFilesOne(path: string, missing: set<string>)
    ensures MissingFiles([path], missing) == if path in missing then ["Values file does not exist: " + path] else []
  {
    assert [path][1..] == [];
  }

  // ---- lintChart ---------------------------------------------------------------------------

  /** What `helm lint --strict` did: passed, or failed with this standard output and error. */
  datatype LintRun = LintPassed | LintFailed(stdout: string, stderr: string)

  /** lintChart: nothing on success; on failure the error lines of stdout followed by stderr. */
  function LintChart(run: LintRun): (r: seq<string>)
    ensures run.LintPassed? ==> r == []
    ensures forall i :: 0 <= i < |r| ==> IsErrorLine(r[i])
    ensures run.LintFailed? ==>
              forall l :: multiset(r)[l] == if IsErrorLine(l) then multiset(Text.Split(run.stdout + run.stderr, '\n'))[l] else 0
  {
    match run
    case LintPassed => []
    case LintFailed(out, err) => ParseErrorLogs(out + err)
  }

  /** A failed lint whose output never mentions `[ERROR]` contributes no message, so the scan
      cannot tell it from a passing lint. */
  lemma SilentLintFailure(out: string, err: string)
    requires !Text.Contains(out + err, ErrorTag)
    ensures LintChart(LintFailed(out, err)) == LintChart(LintPassed) == []
  {
    NoTagNoErrors(out + err);
  }

  // ---- parseTemplates ----------------------------------------------------------------------

  /** One callback of the walk over the templates directory: an access error for a path, or a
      file-system entry with its base name and what reading it gave. */
  datatype WalkEntry =
    | AccessError(path: string, err: string)
    | Entry(path: string, name: string, isDir: bool, content: Result<string, string>)

  /** The templates directory as `os.Stat` saw it, and the walk's callbacks in walk order. */
  datatype TemplatesDir = NoTemplatesDir | DirStatError(err: string) | NotADirectory | Walked(entries: seq<WalkEntry>)

  predicate EndsWith(s: string, suffix: string)
  {
    |suffix| <= |s| && s[|s| - |suffix|..] == suffix
  }

  /** Only regular files whose name ends in `.yaml` are parsed. */
  predicate IsTemplate(e: WalkEntry)
  {
    e.Entry? && !e.isDir && EndsWith(e.name, ".yaml")
  }

  /** The outcome of one callback: the references found and the messages reported. */
  function VisitEntry(e: WalkEntry): (seq<ValueReference>, seq<string>)
  {
    if e.AccessError? then ([], ["Error accessing file " + e.path + ": " + e.err])
    else if !IsTemplate(e) then ([], [])
    else if e.content.Failure? then ([], ["Error parsing template file " + e.path + ": " + e.content.error])
    else
      var parsed := Extractor.TemplateParser(e.path, e.content.value);
      if parsed.Failure? then ([], ["Error parsing template file " + e.path + ": " + parsed.error])
      else (parsed.value, [])
  }

  /** The walk: references and messages of the callbacks, each in callback order. */
  function Walk(entries: seq<WalkEntry>): (seq<ValueReference>, seq<string>)
  {
    if |entries| == 0 then ([], [])
    else
      var here := VisitEntry(entries[0]);
      var rest := Walk(entries[1..]);
      (here.0 + rest.0, here.1 + rest.1)
  }

  /** parseTemplates: no templates directory is not an error; a directory that cannot be
      inspected, or is a file, is one message; otherwise the walk's results. */
  function ParseTemplates(templatesDirPath: string, dir: TemplatesDir): (r: (seq<ValueReference>, seq<string>))
    ensures !dir.Walked? ==> r.0 == []
    ensures dir.NoTemplatesDir? ==> r.1 == []
    ensures dir.DirStatError? ==> r.1 == ["Error accessing templates directory: " + dir.err]
    ensures dir.NotADirectory? ==> r.1 == ["Expected templates to be a directory but found a file: " + templatesDirPath]
  {
    match dir
    case NoTemplatesDir => ([], [])
    case DirStatError(e) => ([], ["Error accessing templates directory: " + e])
    case NotADirectory => ([], ["Expected templates to be a directory but found a file: " + templatesDirPath])
    case Walked(entries) => Walk(entries)
  }

  /** Every template file that can be read is parsed without error. */
  predicate WalkClean(entries: seq<WalkEntry>)
  {
    forall i :: 0 <= i < |entries| ==> !entries[i].AccessError? && (IsTemplate(entries[i]) ==> entries[i].content.Success?)
  }

  /** The walk reports no message exactly when no entry is inaccessible and every template
      file reads; the extractor itself never fails. */
  lemma {:induction false} WalkErrorsEmpty(entries: seq<WalkEntry>)
    ensures Walk(entries).1 == [] <==> WalkClean(entries)
    decreases |entries|
  {
    if |entries| > 0 {
      WalkErrorsEmpty(entries[1..]);
      VisitErrorsEmpty(entries[0]);
      assert Walk(entries).1 == VisitEntry(entries[0]).1 + Walk(entries[1..]).1;
      assert forall i :: 0 < i < |entries| ==> entries[i] == entries[1..][i - 1];
    }
  }

  /** One callback reports nothing exactly when its entry is accessible and, if a template,
      readable. */
  lemma VisitErrorsEmpty(e: WalkEntry)
    ensures VisitEntry(e).1 == [] <==> !e.AccessError? && (IsTemplate(e) ==> e.content.Success?)
  {
    if !e.AccessError? && IsTemplate(e) && e.content.Success? {
    }
  }

  /** The walk processes callbacks one after the other: its results distribute over a split of
      the callback list. */
  lemma WalkAppend(a: seq<WalkEntry>, b: seq<WalkEntry>)
    ensures Walk(a + b) == (Walk(a).0 + Walk(b).0, Walk(a).1 + Walk(b).1)
  {
    WalkRefsAppend(a, b);
    WalkErrorsAppend(a, b);
  }

  lemma {:induction false} WalkRefsAppend(a: seq<WalkEntry>, b: seq<WalkEntry>)
    ensures Walk(a + b).0 == Walk(a).0 + Walk(b).0
    decreases |a|
  {
    if |a| == 0 {
      assert a + b == b;
    } else {
      assert (a + b)[1..] == a[1..] + b;
      assert (a + b)[0] == a[0];
      WalkRefsAppend(a[1..], b);
      var h := VisitEntry(a[0]).0;
      assert h + (Walk(a[1..]).0 + Walk(b).0) == (h + Walk(a[1..]).0) + Walk(b).0;
    }
  }

  lemma {:induction false} WalkErrorsAppend(a: seq<WalkEntry>, b: seq<WalkEntry>)
    ensures Walk(a + b).1 == Walk(a).1 + Walk(b).1
    decreases |a|
  {
    if |a| == 0 {
      assert a + b == b;
    } else {
      assert (a + b)[1..] == a[1..] + b;
      assert (a + b)[0] == a[0];
      WalkErrorsAppend(a[1..], b);
      var h := VisitEntry(a[0]).1;
      assert h + (Walk(a[1..]).1 + Walk(b).1) == (h + Walk(a[1..]).1) + Walk(b).1;
    }
  }

  /** parseTemplates reports nothing exactly when there is no templates directory, or it is a
      directory whose walk meets no inaccessible entry and no unreadable template. */
  lemma ParseTemplatesClean(templatesDirPath: string, dir: TemplatesDir)
    ensures ParseTemplates(templatesDirPath, dir).1 == [] <==> dir.NoTemplatesDir? || (dir.Walked? && WalkClean(dir.entries))
  {
    if dir.Walked? {
      WalkErrorsEmpty(dir.entries);
    }
  }

  /** A readable template file contributes exactly the extractor's references for its content,
      and anything that is not a `.yaml` file contributes nothing at all. */
  lemma VisitTemplate(e: WalkEntry)
    ensures IsTemplate(e) && e.content.Success? ==>
            VisitEntry(e) == (Extractor.Refs(e.path, Text.Split(e.content.value, '\n'), 1), [])
    ensures e.Entry? && !IsTemplate(e) ==> VisitEntry(e) == ([], [])
  {
    if IsTemplate(e) && e.content.Success? {
    }
  }

  // ---- ScanHelmChart -----------------------------------------------------------------------

  /** Everything the scan of one chart consults. `chartValuesPath` is the chart's own
      values.yaml path and `missing` the values-file paths that do not exist. */
  datatype ScanInput = ScanInput(
    chartPath: string,
    valuesFiles: seq<Loading.ExtraFile>,
    missing: set<string>,
    deps: DependencyRun,
    lint: LintRun,
    templatesDirPath: string,
    templates: TemplatesDir,
    chartValuesPath: string,
    chartValues: Loading.ChartValues)

  /** The four results; `None` stands for Go's nil map and nil slice. */
  datatype ScanResult = ScanResult(
    success: bool,
    errors: seq<string>,
    values: Option<Mapping>,
    undefined: Option<seq<string>>)

  function Paths(files: seq<Loading.ExtraFile>): (r: seq<string>)
    ensures |r| == |files|
    ensures forall i :: 0 <= i < |r| ==> r[i] == files[i].path
  {
    if |files| == 0 then [] else [files[0].path] + Paths(files[1..])
  }

  /** The normal path: lint, template, load and undefined-value messages, in that order. */
  function FullScan(input: ScanInput): ScanResult
  {
    var lintErrors := LintChart(input.lint);
    var (refs, templateErrors) := ParseTemplates(input.templatesDirPath, input.templates);
    var values := Loading.MergeAll(Loading.Docs(input.chartValuesPath, input.chartValues, input.valuesFiles));
    var loadErrors := Loading.Errors(input.chartValuesPath, input.chartValues, input.valuesFiles);
    var undefined := Checker.CheckValueReferences(refs, values);
    var errors := lintErrors + templateErrors + loadErrors + undefined;
    ScanResult(errors == [], errors, Some(values), Some(undefined))
  }

  /** ScanHelmChart: three early exits, each failing with only its own messages and no values,
      then the full scan. */
  function ScanHelmChart(input: ScanInput): (r: ScanResult)
    ensures r.success <==> r.errors == []
    ensures r.values.None? <==> r.undefined.None?
    ensures input.chartPath == "" ==> r == ScanResult(false, ["Chart path is empty"], None, None)
    ensures r.values.Some? ==> |r.undefined.value| <= |r.errors| &&
                               r.errors[|r.errors| - |r.undefined.value|..] == r.undefined.value
  {
    if input.chartPath == "" then ScanResult(false, ["Chart path is empty"], None, None)
    else
      var (ok, depErrors) := HandleDependencies(input.deps);
      if !ok then ScanResult(false, depErrors, None, None)
      else
        var missingErrors := if |input.valuesFiles| > 0 then MissingFiles(Paths(input.valuesFiles), input.missing) else [];
        if |missingErrors| > 0 then ScanResult(false, missingErrors, None, None)
        else FullScan(input)
  }

  /** The scan reaches its normal path exactly when the chart path is set, dependencies are
      fine and every values file exists. */
  predicate Proceeds(input: ScanInput)
  {
    input.chartPath != "" && DependenciesOk(input.deps) &&
    forall i :: 0 <= i < |input.valuesFiles| ==> input.valuesFiles[i].path !in input.missing
  }

  /** A dependency failure, or a values file that does not exist, ends the scan with that
      stage's messages alone and no values. */
  lemma EarlyExits(input: ScanInput)
    requires input.chartPath != ""
    ensures !DependenciesOk(input.deps) ==>
              ScanHelmChart(input) == ScanResult(false, HandleDependencies(input.deps).1, None, None)
    ensures DependenciesOk(input.deps) && (exists i :: 0 <= i < |input.valuesFiles| && input.valuesFiles[i].path in input.missing) ==>
              ScanHelmChart(input) == ScanResult(false, MissingFiles(Paths(input.valuesFiles), input.missing), None, None)
  {
    if DependenciesOk(input.deps) && exists i :: 0 <= i < |input.valuesFiles| && input.valuesFiles[i].path in input.missing {
      var i :| 0 <= i < |input.valuesFiles| && input.valuesFiles[i].path in input.missing;
      assert Paths(input.valuesFiles)[i] in input.missing;
    }
  }

  /** On the normal path the messages are the lint errors, then the template errors, then the
      load errors, then the undefined-value diagnostics. */
  lemma ScanErrors(input: ScanInput)
    ensures Proceeds(input) ==>
              ScanHelmChart(input).undefined.Some? &&
              ScanHelmChart(input).errors ==
                LintChart(input.lint) + ParseTemplates(input.templatesDirPath, input.templates).1 +
                Loading.Errors(input.chartValuesPath, input.chartValues, input.valuesFiles) +
                ScanHelmChart(input).undefined.value
  {
    ScanValues(input);
  }

  /** The values are reported exactly on the normal path, and are then the left fold of the
      loaded documents; the undefined list is then the checker's verdict on every reference. */
  lemma ScanValues(input: ScanInput)
    ensures ScanHelmChart(input).values.Some? <==> Proceeds(input)
    ensures Proceeds(input) ==>
            ScanHelmChart(input).values ==
              Some(Loading.MergeAll(Loading.Docs(input.chartValuesPath, input.chartValues, input.valuesFiles))) &&
            ScanHelmChart(input).undefined ==
              Some(Checker.CheckValueReferences(ParseTemplates(input.templatesDirPath, input.templates).0,
                                                ScanHelmChart(input).values.value))
  {
    var paths := Paths(input.valuesFiles);
    assert (forall i :: 0 <= i < |paths| ==> paths[i] !in input.missing) <==>
           (forall i :: 0 <= i < |input.valuesFiles| ==> input.valuesFiles[i].path !in input.missing);
  }

  /** The scan succeeds exactly when it proceeds, the lint reports no error line, the templates
      and values files load cleanly, and every extracted reference resolves. */
  lemma ScanSucceeds(input: ScanInput)
    ensures ScanHelmChart(input).success <==>
            Proceeds(input) &&
            LintChart(input.lint) == [] &&
            ParseTemplates(input.templatesDirPath, input.templates).1 == [] &&
            Loading.NoLoadFailure(input.chartValuesPath, input.chartValues, input.valuesFiles) &&
            var refs := ParseTemplates(input.templatesDirPath, input.templates).0;
            var values := Loading.MergeAll(Loading.Docs(input.chartValuesPath, input.chartValues, input.valuesFiles));
            forall k :: 0 <= k < |refs| ==> Checker.Defined(refs[k], values)
  {
    ScanValues(input);
    Loading.ErrorsEmpty(input.chartValuesPath, input.chartValues, input.valuesFiles);
    Checker.CheckEmpty(ParseTemplates(input.templatesDirPath, input.templates).0,
                       Loading.MergeAll(Loading.Docs(input.chartValuesPath, input.chartValues, input.valuesFiles)));
  }

  /** A chart with nothing to complain about: no templates directory, no values files, a
      passing lint and no dependencies scans successfully with empty values. */
  lemma EmptyChartSucceeds(input: ScanInput)
    requires input.chartPath != "" && input.valuesFiles == [] && input.deps.chartYaml == Success(false)
    requires input.lint == LintPassed && input.templates == NoTemplatesDir && input.chartValues == Loading.Absent
    ensures ScanHelmChart(input) == ScanResult(true, [], Some(map[]), Some([]))
  {
  }
}

=== FILE: text.dfy ===
/** The few Go string primitives the checker relies on: `strings.Split` with a one-character
    separator, `strings.Join`, `strings.Contains` and the decimal rendering of `%d`. */
module Text {

  /** `strings.Join(parts, sep)` for a one-character separator. */
  function Join(parts: seq<string>, sep: char): string
  {
    if |parts| == 0 then []
    else if |parts| == 1 then parts[0]
    else parts[0] + [sep] + Join(parts[1..], sep)
  }

  /** No piece holds the separator. */
  predicate SeparatorFree(parts: seq<string>, sep: char)
  {
    forall i :: 0 <= i < |parts| ==> sep !in parts[i]
  }

  /** `strings.Split(s, sep)`: the pieces between separators, always at least one
      (an empty `s` gives one empty piece, a trailing separator gives a trailing empty piece). */
  function Split(s: string, sep: char): (r: seq<string>)
    ensures |r| >= 1
    ensures Join(r, sep) == s
  {
    if s == [] then [[]]
    else
      var rest := Split(s[1..], sep);
      if s[0] == sep then
        assert s == [sep] + Join(rest, sep);
        [[]] + rest
      else
        var r := [[s[0]] + rest[0]] + rest[1..];
        assert Join(r, sep) == s by {
          if |rest| > 1 {
            assert rest == [rest[0]] + rest[1..];
            assert Join(rest, sep) == rest[0] + [sep] + Join(rest[1..], sep);
          }
        }
        r
  }

  /** No piece of a split holds the separator. */
  lemma {:induction false} SplitSeparatorFree(s: string, sep: char)
    ensures SeparatorFree(Split(s, sep), sep)
    decreases |s|
  {
    if s != [] {
      SplitSeparatorFree(s[1..], sep);
      var rest := Split(s[1..], sep);
      var r := Split(s, sep);
      if s[0] == sep {
        assert r == [[]] + rest;
        assert forall i :: 0 < i < |r| ==> r[i] == rest[i - 1];
      } else {
        assert r == [[s[0]] + rest[0]] + rest[1..];
        assert sep !in [s[0]] + rest[0];
        assert forall i :: 0 < i < |r| ==> r[i] == rest[i];
      }
    }
  }

  /** Splitting undoes joining: the pieces are recovered exactly when none holds the separator. */
  lemma {:induction false} SplitJoin(parts: seq<string>, sep: char)
    requires |parts| >= 1 && SeparatorFree(parts, sep)
    ensures Split(Join(parts, sep), sep) == parts
    decreases |parts|, |parts[0]|
  {
    if |parts| == 1 {
      SplitNoSeparator(parts[0], sep);
    } else if parts[0] == [] {
      var tail := parts[1..];
      assert Join(parts, sep) == [sep] + Join(tail, sep);
      SplitCons(sep, Join(tail, sep), sep);
      SplitJoin(tail, sep);
      assert parts == [[]] + tail;
    } else {
      var c := parts[0][0];
      var shorter := [parts[0][1..]] + parts[1..];
      Shorter(parts, sep);
      SplitCons(c, Join(shorter, sep), sep);
      SplitJoin(shorter, sep);
      assert shorter[0] == parts[0][1..] && shorter[1..] == parts[1..];
      assert parts[0] == [c] + parts[0][1..];
      assert parts == [[c] + shorter[0]] + shorter[1..];
    }
  }

  /** Splitting text that starts with one more character. */
  lemma SplitCons(c: char, t: string, sep: char)
    ensures Split([c] + t, sep) ==
            if c == sep then [[]] + Split(t, sep) else [[c] + Split(t, sep)[0]] + Split(t, sep)[1..]
  {
    assert ([c] + t)[1..] == t;
  }

  /** Moving the first character of the first piece out of a join. */
  lemma Shorter(parts: seq<string>, sep: char)
    requires |parts| >= 2 && parts[0] != [] && SeparatorFree(parts, sep)
    ensures var shorter := [parts[0][1..]] + parts[1..];
            && Join(parts, sep) == [parts[0][0]] + Join(shorter, sep)
            && parts[0][0] != sep
            && SeparatorFree(shorter, sep)
  {
    var c := parts[0][0];
    var shorter := [parts[0][1..]] + parts[1..];
    assert shorter[1..] == parts[1..];
    assert Join(shorter, sep) == parts[0][1..] + [sep] + Join(parts[1..], sep);
    assert parts[0] == [c] + parts[0][1..];
    assert c != sep by { assert parts[0][0] in parts[0]; }
    forall i | 0 <= i < |shorter| ensures sep !in shorter[i] {
      if i == 0 {
        assert forall x :: x in parts[0][1..] ==> x in parts[0];
      } else {
        assert shorter[i] == parts[i];
      }
    }
  }

  /** Text without the separator is a single piece. */
  lemma {:induction false} SplitNoSeparator(s: string, sep: char)
    requires sep !in s
    ensures Split(s, sep) == [s]
    decreases |s|
  {
    if s != [] {
      assert forall c :: c in s[1..] ==> c in s;
      SplitNoSeparator(s[1..], sep);
    }
  }

  /** Text splits into a single piece exactly when it holds no separator. */
  lemma SplitSingle(s: string, sep: char)
    ensures |Split(s, sep)| == 1 <==> sep !in s
  {
    if sep !in s {
      SplitNoSeparator(s, sep);
    }
  }

  /** Splitting distributes over a separator: the pieces of `a + sep + b` are those of `a`
      followed by those of `b`. */
  lemma SplitAppend(a: string, b: string, sep: char)
    ensures Split(a + [sep] + b, sep) == Split(a, sep) + Split(b, sep)
  {
    var pa, pb := Split(a, sep), Split(b, sep);
    SplitSeparatorFree(a, sep);
    SplitSeparatorFree(b, sep);
    SeparatorFreeAppend(pa, pb, sep);
    JoinAppend(pa, pb, sep);
    assert Join(pa + pb, sep) == a + [sep] + b;
    SplitJoin(pa + pb, sep);
  }

  /** Two separator-free piece lists stay separator-free side by side. */
  lemma SeparatorFreeAppend(p: seq<string>, q: seq<string>, sep: char)
    requires SeparatorFree(p, sep) && SeparatorFree(q, sep)
    ensures SeparatorFree(p + q, sep)
  {
    forall i | 0 <= i < |p + q| ensures sep !in (p + q)[i] {
      if i < |p| { assert (p + q)[i] == p[i]; } else { assert (p + q)[i] == q[i - |p|]; }
    }
  }

  /** Joining two non-empty piece lists puts one separator between their joins. */
  lemma {:induction false} JoinAppend(p: seq<string>, q: seq<string>, sep: char)
    requires |p| >= 1 && |q| >= 1
    ensures Join(p + q, sep) == Join(p, sep) + [sep] + Join(q, sep)
    decreases |p|
  {
    if |p| == 1 {
      assert (p + q)[1..] == q;
    } else {
      assert (p + q)[1..] == p[1..] + q;
      JoinAppend(p[1..], q, sep);
    }
  }

  /** Every piece of a join occurs in the joined text. */
  lemma {:induction false} PieceOccurs(parts: seq<string>, sep: char, i: nat)
    requires i < |parts|
    ensures exists o :: OccursAt(Join(parts, sep), parts[i], o)
    decreases |parts|
  {
    var whole := Join(parts, sep);
    if |parts| == 1 {
      assert OccursAt(whole, parts[i], 0);
    } else if i == 0 {
      assert whole == parts[0] + ([sep] + Join(parts[1..], sep));
      assert OccursAt(whole, parts[0], 0);
    } else {
      var head := parts[0] + [sep];
      var tail := Join(parts[1..], sep);
      assert whole == head + tail;
      PieceOccurs(parts[1..], sep, i - 1);
      var o :| OccursAt(tail, parts[1..][i - 1], o);
      assert (head + tail)[|head| + o..|head| + o + |parts[i]|] == tail[o..o + |parts[i]|];
      assert OccursAt(whole, parts[i], |head| + o);
    }
  }

  /** `sub` occurs in `s` starting at index `i`. */
  predicate OccursAt(s: string, sub: string, i: int)
  {
    0 <= i && i + |sub| <= |s| && s[i..i + |sub|] == sub
  }

  /** An occurrence inside an occurrence is an occurrence. */
  lemma OccursWithin(s: string, mid: string, sub: string, o: int, p: int)
    requires OccursAt(s, mid, o) && OccursAt(mid, sub, p)
    ensures OccursAt(s, sub, o + p)
  {
    forall k | 0 <= k < |sub| ensures s[o + p + k] == sub[k] {
      assert s[o..o + |mid|][p + k] == s[o + p + k];
      assert mid[p..p + |sub|][k] == mid[p + k];
    }
    assert s[o + p..o + p + |sub|] == sub;
  }

  /** `strings.Contains(s, sub)`. */
  function Contains(s: string, sub: string): (r: bool)
    ensures r <==> exists i :: OccursAt(s, sub, i)
    decreases |s|
  {
    if |sub| > |s| then false
    else if s[..|sub|] == sub then
      assert OccursAt(s, sub, 0);
      true
    else
      var r := Contains(s[1..], sub);
      assert r ==> exists i :: OccursAt(s, sub, i) by {
        if r {
          var j :| OccursAt(s[1..], sub, j);
          assert s[1..][j..j + |sub|] == s[j + 1..j + 1 + |sub|];
          assert OccursAt(s, sub, j + 1);
        }
      }
      assert (exists i :: OccursAt(s, sub, i)) ==> r by {
        if exists i :: OccursAt(s, sub, i) {
          var i :| OccursAt(s, sub, i);
          assert i != 0;
          assert s[1..][i - 1..i - 1 + |sub|] == s[i..i + |sub|];
          assert OccursAt(s[1..], sub, i - 1);
        }
      }
      r
  }

  predicate IsDigit(c: char)
  {
    '0' <= c <= '9'
  }

  /** The number a string of decimal digits denotes (most significant digit first). */
  function DecimalValue(s: string): nat
    requires forall i :: 0 <= i < |s| ==> IsDigit(s[i])
  {
    if s == [] then 0
    else
      assert IsDigit(s[|s| - 1]);
      10 * DecimalValue(s[..|s| - 1]) + (s[|s| - 1] as int - '0' as int) as nat
  }

  /** Go's `%d` for a non-negative integer: the canonical decimal numeral. */
  function NatToString(n: nat): (r: string)
    ensures |r| >= 1
    ensures forall i :: 0 <= i < |r| ==> IsDigit(r[i])
    ensures DecimalValue(r) == n
    ensures |r| > 1 ==> r[0] != '0'
  {
    var d := ["0123456789"[n % 10]];
    if n < 10 then
      assert DecimalValue(d) == 10 * DecimalValue([]) + n;
      d
    else
      var high := NatToString(n / 10);
      var r := high + d;
      assert r[..|r| - 1] == high;
      r
  }
}

=== FILE: values.dfy ===
/** The decoded content of a values file and the two operations the checker performs on it:
    walking a dotted key path (checkNestedValueExists) and deep-merging two mappings (mergeMaps). */
module Values {
  import opened Wrappers

  /** A decoded YAML node, standing in for Go's `interface{}`: `Null` is the nil interface
      (an explicit `null` or an empty value), `Map` a `map[string]interface{}`. */
  datatype Value = Null | Scalar(text: string) | Seq(items: seq<Value>) | Map(entries: map<string, Value>)

  /** A `map[string]interface{}`: the top level of a values document. */
  type Mapping = map<string, Value>

  /** Reference walk: the node reached by following `path` from `node`, if every step
      lands on a mapping that holds the next key. The empty path reaches `node` itself. */
  function Lookup(path: seq<string>, node: Value): Option<Value>
  {
    if |path| == 0 then Some(node)
    else match node
      case Map(m) => if path[0] in m then Lookup(path[1..], m[path[0]]) else None
      case _ => None
  }

  /** checkNestedValueExists: the key path names an entry of nested mappings. The final key
      only has to be present (a null value counts as defined); every earlier key must hold a
      mapping. An empty path, a nil node and a non-mapping node all give false. */
  function NestedValueExists(keys: seq<string>, node: Value): (r: bool)
    ensures r <==> |keys| > 0 && Lookup(keys, node).Some?
  {
    if |keys| == 0 then false
    else match node
      case Null => false
      case Map(m) =>
        if |keys| == 1 then keys[0] in m
        else if keys[0] in m && m[keys[0]].Map? then NestedValueExists(keys[1..], m[keys[0]])
        else false
      case _ => false
  }

  /** The same walk started at a top-level values map. */
  function Resolves(keys: seq<string>, values: Mapping): bool
  {
    NestedValueExists(keys, Map(values))
  }

  /** The value `node` with the entry named by the last key of `keys` deleted, when the
      walk to its parent succeeds; otherwise `node` unchanged. */
  function RemoveLeaf(keys: seq<string>, node: Value): Value
  {
    if |keys| == 0 then node
    else match node
      case Map(m) =>
        if |keys| == 1 then Map(m - {keys[0]})
        else if keys[0] in m then Map(m[keys[0] := RemoveLeaf(keys[1..], m[keys[0]])])
        else node
      case _ => node
  }

  /** Deleting the leaf a reference names makes that reference undefined. */
  lemma {:induction false} RemoveLeafUndefines(keys: seq<string>, node: Value)
    requires |keys| > 0
    ensures !NestedValueExists(keys, RemoveLeaf(keys, node))
  {
    if |keys| > 1 && node.Map? && keys[0] in node.entries {
      RemoveLeafUndefines(keys[1..], node.entries[keys[0]]);
    }
  }

  /** Deleting a leaf leaves every path that does not run through it as it was:
      in particular a sibling key of the removed leaf stays defined. */
  lemma {:induction false} RemoveLeafKeepsSiblings(keys: seq<string>, other: seq<string>, node: Value)
    requires |keys| > 0 && |other| == |keys|
    requires other[..|other| - 1] == keys[..|keys| - 1] && other[|other| - 1] != keys[|keys| - 1]
    ensures NestedValueExists(other, RemoveLeaf(keys, node)) <==> NestedValueExists(other, node)
  {
    if |keys| > 1 && node.Map? && keys[0] in node.entries {
      assert other[0] == other[..|other| - 1][0] == keys[..|keys| - 1][0] == keys[0];
      assert other[1..][..|other| - 2] == other[..|other| - 1][1..];
      assert keys[1..][..|keys| - 2] == keys[..|keys| - 1][1..];
      RemoveLeafKeepsSiblings(keys[1..], other[1..], node.entries[keys[0]]);
    } else if |keys| > 1 && node.Map? {
      assert other[0] == other[..|other| - 1][0] == keys[..|keys| - 1][0] == keys[0];
    }
  }

  /** mergeMaps as a value: every key of either side; the source's value where the source has
      the key, except that two mappings under the same key are merged recursively. */
  function Merge(target: Mapping, source: Mapping): Mapping
    decreases Map(source)
  {
    map k | k in target.Keys + source.Keys ::
      if k in source then
        (if k in target && target[k].Map? && source[k].Map?
         then Map(Merge(target[k].entries, source[k].entries))
         else source[k])
      else target[k]
  }

  /** mergeMaps(target, source): walks the source's keys in any order (Go's map order is
      unspecified), recursing where both sides hold a mapping and otherwise storing the
      source's value, null included, over whatever the target held. */
  method MergeMaps(target: Mapping, source: Mapping) returns (r: Mapping)
    ensures r.Keys == target.Keys + source.Keys
    ensures forall k :: k in target && k !in source ==> r[k] == target[k]
    ensures forall k :: k in source && !(k in target && target[k].Map? && source[k].Map?) ==> r[k] == source[k]
    ensures forall k :: k in source && k in target && target[k].Map? && source[k].Map? ==>
                        r[k] == Map(Merge(target[k].entries, source[k].entries))
    ensures r == Merge(target, source)
    decreases Map(source)
  {
    r := target;
    var pending := source.Keys;
    while pending != {}
      invariant pending <= source.Keys
      invariant r.Keys == target.Keys + (source.Keys - pending)
      invariant forall k :: k in r && k !in source.Keys - pending ==> r[k] == target[k]
      invariant forall k :: k in source.Keys - pending ==> r[k] == Merge(target, source)[k]
      decreases pending
    {
      var key :| key in pending;
      var value := source[key];
      if key in r && r[key].Map? && value.Map? {
        var merged := MergeMaps(r[key].entries, value.entries);
        r := r[key := Map(merged)];
      } else {
        r := r[key := value];
      }
      pending := pending - {key};
    }
  }

  /** Merging a mapping into itself changes nothing. */
  lemma {:induction false} MergeIdempotent(m: Mapping)
    ensures Merge(m, m) == m
    decreases Map(m)
  {
    forall k | k in m && m[k].Map?
      ensures Merge(m[k].entries, m[k].entries) == m[k].entries
    {
      MergeIdempotent(m[k].entries);
    }
    assert forall k :: k in m && m[k].Map? ==> Map(m[k].entries) == m[k];
  }

  /** The empty mapping is a two-sided identity for merging. */
  lemma MergeIdentity(m: Mapping)
    ensures Merge(map[], m) == m
    ensures Merge(m, map[]) == m
  {
  }

  /** Merging is not commutative: with one key holding a scalar on both sides, the second
      argument wins. */
  lemma MergeNotCommutative()
    ensures Merge(map["k" := Scalar("a")], map["k" := Scalar("b")]) == map["k" := Scalar("b")]
    ensures Merge(map["k" := Scalar("b")], map["k" := Scalar("a")]) == map["k" := Scalar("a")]
    ensures exists t: Mapping, s: Mapping :: Merge(t, s) != Merge(s, t)
  {
    var t, s := map["k" := Scalar("a")], map["k" := Scalar("b")];
    assert Merge(t, s)["k"] == Scalar("b");
    assert Merge(s, t)["k"] == Scalar("a");
  }

  /** A null in the source replaces a whole mapping in the target, so no path below the key
      resolves in the merge. */
  lemma NullOverridesMapping(t: Mapping, s: Mapping, k: string)
    requires k in t && t[k].Map? && k in s && s[k] == Null
    ensures Merge(t, s)[k] == Null
    ensures forall p: seq<string> :: |p| > 0 ==> !NestedValueExists([k] + p, Map(Merge(t, s)))
  {
    forall p: seq<string> | |p| > 0
      ensures !NestedValueExists([k] + p, Map(Merge(t, s)))
    {
      assert ([k] + p)[0] == k;
    }
  }

  /** No proper prefix of `keys` is replaced wholesale by the source: along the path the
      source either lacks the key or holds a mapping there. */
  predicate Shielded(keys: seq<string>, source: Mapping)
  {
    |keys| <= 1 || keys[0] !in source ||
    (source[keys[0]].Map? && Shielded(keys[1..], source[keys[0]].entries))
  }

  /** A reference resolves in the merge exactly when it resolves in the source, or it resolves
      in the target and the source does not cut its path with a non-mapping value. */
  lemma {:induction false} ResolvesInMerge(keys: seq<string>, t: Mapping, s: Mapping)
    ensures Resolves(keys, Merge(t, s)) <==> Resolves(keys, s) || (Resolves(keys, t) && Shielded(keys, s))
    decreases |keys|
  {
    if |keys| > 1 {
      var k := keys[0];
      if k in s && k in t && t[k].Map? && s[k].Map? {
        ResolvesInMerge(keys[1..], t[k].entries, s[k].entries);
        assert Map(s[k].entries) == s[k] && Map(t[k].entries) == t[k];
      }
    }
  }

  /** Later values win at the leaves: a non-mapping value the source holds at a path is the
      value found at that path after merging. */
  lemma {:induction false} SourceLeafWins(keys: seq<string>, t: Mapping, s: Mapping, x: Value)
    requires |keys| > 0 && Lookup(keys, Map(s)) == Some(x) && !x.Map?
    ensures Lookup(keys, Map(Merge(t, s))) == Some(x)
    decreases |keys|
  {
    var k := keys[0];
    if |keys| > 1 && k in t && t[k].Map? && s[k].Map? {
      SourceLeafWins(keys[1..], t[k].entries, s[k].entries, x);
      assert Map(s[k].entries) == s[k];
    }
  }

  /** Merging the same source twice in a row is the same as merging it once: listing a
      values file twice has no further effect. */
  lemma {:induction false} MergeAbsorbs(t: Mapping, s: Mapping)
    ensures Merge(Merge(t, s), s) == Merge(t, s)
    decreases Map(s)
  {
    var once := Merge(t, s);
    forall k | k in s && s[k].Map?
      ensures Merge(once[k].entries, s[k].entries) == once[k].entries
    {
      if k in t && t[k].Map? {
        MergeAbsorbs(t[k].entries, s[k].entries);
      } else {
        MergeIdempotent(s[k].entries);
      }
    }
    assert forall k :: k in s && s[k].Map? ==> once[k].Map? && Map(once[k].entries) == once[k];
  }
}

=== FILE: wrap.dfy ===
/** WrapString and WrapWords: minimal-raggedness line breaking of the words of a message.
    Word widths come from a display-width function given as a parameter. WrapWords is modelled
    twice: as written, with `math.MaxInt32` standing for "no candidate yet", and corrected, where
    the first candidate break is always taken; see `StepAt`. */
module Wrap {
  import Text

  const MaxInt32: int := 0x7fff_ffff
  const DefaultPenalty: int := 100000

  /** The total width of words `i .. k-1`. */
  function Sum(w: seq<nat>, i: nat, k: nat): nat
    requires i <= k <= |w|
    decreases k - i
  {
    if i == k then 0 else Sum(w, i, k - 1) + w[k - 1]
  }

  /** The width of a line holding words `i .. k-1` with `spc` units between neighbours
      (`length[i][k-1]` of WrapWords' table). */
  function LineLen(w: seq<nat>, spc: nat, i: nat, k: nat): int
    requires i < k <= |w|
  {
    Sum(w, i, k) + spc * (k - i - 1)
  }

  /** The table entries of one position: the least cost found for the words from it on, and
      where its line breaks. */
  datatype Step = Step(cost: int, brk: nat)

  /** The cost of breaking the line that starts at word `i` before word `j`: the squared slack,
      the penalty when the line is too long, and the best cost from `j` on. `later` holds the
      steps of positions `i+1 ..`. */
  function Candidate(w: seq<nat>, spc: nat, lim: int, pen: int, i: nat, j: nat, later: seq<Step>): int
    requires i < j < |w| && |later| == |w| - i - 1
  {
    var len := LineLen(w, spc, i, j);
    var d := lim - len;
    d * d + later[j - i - 1].cost + (if len > lim then pen else 0)
  }

  /** The inner loop over candidate breaks `j ..`: a candidate replaces the current choice only
      when strictly cheaper. */
  function BestFrom(w: seq<nat>, spc: nat, lim: int, pen: int, i: nat, j: nat, cur: Step, later: seq<Step>): Step
    requires i < j && |later| == |w| - i - 1
    decreases |w| - j
  {
    if j >= |w| then cur
    else
      var c := Candidate(w, spc, lim, pen, i, j, later);
      BestFrom(w, spc, lim, pen, i, j + 1, if c < cur.cost then Step(c, j) else cur, later)
  }

  /** One iteration of the outer loop. When the rest fits on one line it is one line. Otherwise
      WrapWords as written starts from cost `MaxInt32` and break 0 (`fixed == false`); the corrected
      version takes the first candidate unconditionally (`fixed == true`). */
  function StepAt(w: seq<nat>, spc: nat, lim: int, pen: int, i: nat, later: seq<Step>, fixed: bool): Step
    requires i < |w| && |later| == |w| - i - 1
  {
    if LineLen(w, spc, i, |w|) <= lim then Step(0, |w|)
    else if fixed && i + 1 < |w| then
      BestFrom(w, spc, lim, pen, i, i + 2, Step(Candidate(w, spc, lim, pen, i, i + 1, later), i + 1), later)
    else BestFrom(w, spc, lim, pen, i, i + 1, Step(MaxInt32, 0), later)
  }

  /** The steps of positions `i ..`, filled from the right as the outer loop does. */
  function Steps(w: seq<nat>, spc: nat, lim: int, pen: int, i: nat, fixed: bool): (r: seq<Step>)
    requires i <= |w|
    ensures |r| == |w| - i
    decreases |w| - i
  {
    if i == |w| then []
    else
      var later := Steps(w, spc, lim, pen, i + 1, fixed);
      [StepAt(w, spc, lim, pen, i, later, fixed)] + later
  }

  predicate WithinLimit(w: seq<nat>, lim: int)
  {
    forall k :: 0 <= k < |w| ==> w[k] <= lim
  }

  /** Every break from position `i` on lies strictly after its position and within the words. */
  predicate Advancing(steps: seq<Step>, n: nat, i: nat)
    requires |steps| == n
  {
    forall k :: i <= k < n ==> k < steps[k].brk <= n
  }

  /** The line-building loop of WrapWords, started at `i`, moves strictly forward at every
      position it visits and so ends: a visited break of 0 would either repeat position 0
      forever or slice backwards. */
  predicate ChainAdvances(steps: seq<Step>, n: nat, i: nat)
    requires |steps| == n && i <= n
    decreases n - i
  {
    i == n || (i < steps[i].brk <= n && ChainAdvances(steps, n, steps[i].brk))
  }

  /** A step of the table as written next to the corrected step at the same position: a
      break it records is the corrected step itself, and where it records none both costs are
      at least `MaxInt32`. */
  predicate StepAgrees(f: Step, t: Step)
  {
    (f.brk != 0 ==> f == t) && (f.brk == 0 ==> f.cost >= MaxInt32 && t.cost >= MaxInt32)
  }

  /** The running choices of the inner loop, as written and corrected: the same real candidate,
      or none yet as written and nothing cheaper than `MaxInt32` corrected. */
  predicate Tracks(f: Step, t: Step)
  {
    (f == t && f.cost < MaxInt32 && f.brk != 0) || (f == Step(MaxInt32, 0) && t.cost >= MaxInt32)
  }

  // ---- The choice at one position ----------------------------------------------------------

  /** The inner loop never moves the break outside the candidates. */
  lemma {:induction false} BestFromRange(w: seq<nat>, spc: nat, lim: int, pen: int, i: nat, j: nat, cur: Step, later: seq<Step>)
    requires i < j && |later| == |w| - i - 1 && i < cur.brk < |w|
    ensures i < BestFrom(w, spc, lim, pen, i, j, cur, later).brk < |w|
    decreases |w| - j
  {
    if j < |w| {
      var c := Candidate(w, spc, lim, pen, i, j, later);
      BestFromRange(w, spc, lim, pen, i, j + 1, if c < cur.cost then Step(c, j) else cur, later);
    }
  }

  /** The inner loop finds the cheapest candidate, and the first one among equally cheap ones. */
  lemma {:induction false} BestFromMinimal(w: seq<nat>, spc: nat, lim: int, pen: int, i: nat, j: nat, cur: Step, later: seq<Step>)
    requires i < cur.brk < j <= |w| && |later| == |w| - i - 1
    requires cur.cost == Candidate(w, spc, lim, pen, i, cur.brk, later)
    requires forall k :: i < k < j ==> cur.cost <= Candidate(w, spc, lim, pen, i, k, later)
    requires forall k :: i < k < cur.brk ==> cur.cost < Candidate(w, spc, lim, pen, i, k, later)
    ensures var r := BestFrom(w, spc, lim, pen, i, j, cur, later);
            && i < r.brk < |w| && r.cost == Candidate(w, spc, lim, pen, i, r.brk, later)
            && (forall k :: i < k < |w| ==> r.cost <= Candidate(w, spc, lim, pen, i, k, later))
            && (forall k :: i < k < r.brk ==> r.cost < Candidate(w, spc, lim, pen, i, k, later))
    decreases |w| - j
  {
    if j < |w| {
      var c := Candidate(w, spc, lim, pen, i, j, later);
      var next := if c < cur.cost then Step(c, j) else cur;
      BestFromMinimal(w, spc, lim, pen, i, j + 1, next, later);
    }
  }

  /** Corrected: when the rest does not fit on one line, the chosen break is a cheapest
      candidate, the first such, and its cost is the minimum over all candidates. */
  lemma StepOptimal(w: seq<nat>, spc: nat, lim: int, pen: int, i: nat, later: seq<Step>)
    requires i + 1 < |w| && |later| == |w| - i - 1 && LineLen(w, spc, i, |w|) > lim
    ensures var r := StepAt(w, spc, lim, pen, i, later, true);
            && i < r.brk < |w| && r.cost == Candidate(w, spc, lim, pen, i, r.brk, later)
            && (forall k :: i < k < |w| ==> r.cost <= Candidate(w, spc, lim, pen, i, k, later))
            && (forall k :: i < k < r.brk ==> r.cost < Candidate(w, spc, lim, pen, i, k, later))
  {
    var first := Step(Candidate(w, spc, lim, pen, i, i + 1, later), i + 1);
    BestFromMinimal(w, spc, lim, pen, i, i + 2, first, later);
  }

  lemma SingleWordLine(w: seq<nat>, spc: nat, i: nat)
    requires i < |w|
    ensures LineLen(w, spc, i, i + 1) == w[i]
  {
    assert Sum(w, i, i + 1) == Sum(w, i, i) + w[i];
  }

  /** Corrected: with every word within the limit, every break advances, so rebuilding the lines
      from the breaks terminates. */
  lemma {:induction false} StepsAdvance(w: seq<nat>, spc: nat, lim: int, pen: int, i: nat)
    requires i <= |w| && WithinLimit(w, lim)
    ensures forall k :: 0 <= k < |w| - i ==> i + k < Steps(w, spc, lim, pen, i, true)[k].brk <= |w|
    decreases |w| - i
  {
    if i < |w| {
      StepsAdvance(w, spc, lim, pen, i + 1);
      var later := Steps(w, spc, lim, pen, i + 1, true);
      assert forall k :: 0 <= k < |later| ==> i + 1 + k < later[k].brk <= |w|;
      var s := StepAt(w, spc, lim, pen, i, later, true);
      if LineLen(w, spc, i, |w|) > lim {
        SingleWordLine(w, spc, i);
        assert i + 1 < |w|;
        var first := Step(Candidate(w, spc, lim, pen, i, i + 1, later), i + 1);
        BestFromRange(w, spc, lim, pen, i, i + 2, first, later);
        assert s == BestFrom(w, spc, lim, pen, i, i + 2, first, later);
      } else {
        assert s == Step(0, |w|);
      }
      assert i < s.brk <= |w|;
      var r := Steps(w, spc, lim, pen, i, true);
      assert r == [s] + later;
      forall k | 0 <= k < |r| ensures i + k < r[k].brk <= |w| {
        if k > 0 {
          assert r[k] == later[k - 1];
          assert i + 1 + (k - 1) < later[k - 1].brk <= |w|;
        } else {
          assert r[0] == s;
        }
      }
    }
  }

  /** As written, the sentinel bites: with word widths 1 and 50000 and limit 50000 (the limit
      WrapString raises to the widest word), the only candidate costs 49999 * 49999, which is
      not below `MaxInt32`, so position 0 keeps break 0 and the line-building loop never moves
      past it. The corrected version breaks after the first word. */
  lemma SentinelStalls(w: seq<nat>, lim: int)
    requires w == [1, 50000] && lim == 50000
    ensures Steps(w, 1, lim, DefaultPenalty, 0, false)[0].brk == 0
    ensures Steps(w, 1, lim, DefaultPenalty, 0, true)[0].brk == 1
  {
    assert w[0] == 1 && w[1] == 50000;
    var c := (50000 - w[0]) * (50000 - w[0]);
    assert c == 2499900001;
    TwoWords(w, 1, 50000, DefaultPenalty, false);
    TwoWords(w, 1, 50000, DefaultPenalty, true);
    assert Steps(w, 1, 50000, DefaultPenalty, 0, false)[0] == Step(MaxInt32, 0);
  }

  /** Two words that do not fit on one line, the second within the limit: the only candidate
      breaks after the first word. */
  lemma TwoWords(w: seq<nat>, spc: nat, lim: int, pen: int, fixed: bool)
    requires |w| == 2 && w[1] <= lim && w[0] <= lim && w[0] + spc + w[1] > lim
    ensures var c := (lim - w[0]) * (lim - w[0]);
            Steps(w, spc, lim, pen, 0, fixed)[0] ==
              if fixed || c < MaxInt32 then Step(c, 1) else Step(MaxInt32, 0)
  {
    SingleWordLine(w, spc, 1);
    SingleWordLine(w, spc, 0);
    LineLenStep(w, spc, 0, 1);
    var later := Steps(w, spc, lim, pen, 1, fixed);
    assert Steps(w, spc, lim, pen, 2, fixed) == [];
    assert later == [StepAt(w, spc, lim, pen, 1, [], fixed)];
    assert StepAt(w, spc, lim, pen, 1, [], fixed) == Step(0, 2);
    var c := Candidate(w, spc, lim, pen, 0, 1, later);
    assert c == (lim - w[0]) * (lim - w[0]);
    assert LineLen(w, spc, 0, 2) > lim;
    var start := if fixed then Step(c, 1) else Step(MaxInt32, 0);
    var j0 := if fixed then 2 else 1;
    assert StepAt(w, spc, lim, pen, 0, later, fixed) == BestFrom(w, spc, lim, pen, 0, j0, start, later);
    var next := if fixed then start else if c < MaxInt32 then Step(c, 1) else start;
    assert BestFrom(w, spc, lim, pen, 0, j0, start, later) == BestFrom(w, spc, lim, pen, 0, 2, next, later);
    assert BestFrom(w, spc, lim, pen, 0, 2, next, later) == next;
    assert Steps(w, spc, lim, pen, 0, fixed)[0] == StepAt(w, spc, lim, pen, 0, later, fixed);
  }

  // ---- The table as written against the corrected one ---------------------------------------

  /** A candidate break costs the same in both tables, or at least `MaxInt32` in both: the later
      steps agree, and the squared slack and the penalty are not negative. */
  lemma CandidateAgrees(w: seq<nat>, spc: nat, lim: int, pen: int, i: nat, j: nat, laterF: seq<Step>, laterT: seq<Step>)
    requires i < j < |w| && |laterF| == |laterT| == |w| - i - 1 && pen >= 0
    requires StepAgrees(laterF[j - i - 1], laterT[j - i - 1])
    ensures var cF := Candidate(w, spc, lim, pen, i, j, laterF);
            var cT := Candidate(w, spc, lim, pen, i, j, laterT);
            cF == cT || (cF >= MaxInt32 && cT >= MaxInt32)
  {
    var d := lim - LineLen(w, spc, i, j);
    assert d * d >= 0;
  }

  /** The inner loop keeps the two running choices in step. */
  lemma {:induction false} BestFromAgree(w: seq<nat>, spc: nat, lim: int, pen: int, i: nat, j: nat,
                                         curF: Step, curT: Step, laterF: seq<Step>, laterT: seq<Step>)
    requires i < j && |laterF| == |laterT| == |w| - i - 1 && pen >= 0
    requires forall m :: 0 <= m < |laterF| ==> StepAgrees(laterF[m], laterT[m])
    requires Tracks(curF, curT)
    ensures Tracks(BestFrom(w, spc, lim, pen, i, j, curF, laterF), BestFrom(w, spc, lim, pen, i, j, curT, laterT))
    decreases |w| - j
  {
    if j < |w| {
      var cF := Candidate(w, spc, lim, pen, i, j, laterF);
      var cT := Candidate(w, spc, lim, pen, i, j, laterT);
      CandidateAgrees(w, spc, lim, pen, i, j, laterF, laterT);
      BestFromAgree(w, spc, lim, pen, i, j + 1, if cF < curF.cost then Step(cF, j) else curF,
                    if cT < curT.cost then Step(cT, j) else curT, laterF, laterT);
    }
  }

  /** One position of the outer loop, as written and corrected, from agreeing later steps. */
  lemma StepAtAgree(w: seq<nat>, spc: nat, lim: int, pen: int, i: nat, laterF: seq<Step>, laterT: seq<Step>)
    requires i < |w| && |laterF| == |laterT| == |w| - i - 1 && pen >= 0
    requires forall m :: 0 <= m < |laterF| ==> StepAgrees(laterF[m], laterT[m])
    ensures StepAgrees(StepAt(w, spc, lim, pen, i, laterF, false), StepAt(w, spc, lim, pen, i, laterT, true))
  {
    if LineLen(w, spc, i, |w|) > lim && i + 1 < |w| {
      var cF := Candidate(w, spc, lim, pen, i, i + 1, laterF);
      var firstT := Step(Candidate(w, spc, lim, pen, i, i + 1, laterT), i + 1);
      CandidateAgrees(w, spc, lim, pen, i, i + 1, laterF, laterT);
      var nextF := if cF < MaxInt32 then Step(cF, i + 1) else Step(MaxInt32, 0);
      assert BestFrom(w, spc, lim, pen, i, i + 1, Step(MaxInt32, 0), laterF)
          == BestFrom(w, spc, lim, pen, i, i + 2, nextF, laterF);
      BestFromAgree(w, spc, lim, pen, i, i + 2, nextF, firstT, laterF, laterT);
    }
  }

  /** WrapWords as written and corrected fill their tables alike, except at the positions where
      the table as written records no break; there both costs are at least `MaxInt32`. */
  lemma {:induction false} StepsAgree(w: seq<nat>, spc: nat, lim: int, pen: int, i: nat)
    requires i <= |w| && pen >= 0
    ensures forall k :: 0 <= k < |w| - i ==>
              StepAgrees(Steps(w, spc, lim, pen, i, false)[k], Steps(w, spc, lim, pen, i, true)[k])
    decreases |w| - i
  {
    if i < |w| {
      StepsAgree(w, spc, lim, pen, i + 1);
      var laterF := Steps(w, spc, lim, pen, i + 1, false);
      var laterT := Steps(w, spc, lim, pen, i + 1, true);
      StepAtAgree(w, spc, lim, pen, i, laterF, laterT);
      var f := Steps(w, spc, lim, pen, i, false);
      var t := Steps(w, spc, lim, pen, i, true);
      assert f == [StepAt(w, spc, lim, pen, i, laterF, false)] + laterF;
      assert t == [StepAt(w, spc, lim, pen, i, laterT, true)] + laterT;
      forall k | 0 <= k < |w| - i ensures StepAgrees(f[k], t[k]) {
        if k > 0 {
          assert f[k] == laterF[k - 1] && t[k] == laterT[k - 1];
        }
      }
    }
  }

  /** Wherever the line-building loop of WrapWords as written ends, the corrected table leads it
      through the same positions, so the lines are the same. */
  lemma {:induction false} ChainsAgree(words: seq<string>, w: seq<nat>, spc: nat, lim: int, pen: int, i: nat)
    requires |w| == |words| && i <= |w| && pen >= 0
    requires ChainAdvances(Steps(w, spc, lim, pen, 0, false), |w|, i)
    ensures ChainAdvances(Steps(w, spc, lim, pen, 0, true), |w|, i)
    ensures Lines(words, Steps(w, spc, lim, pen, 0, false), i) == Lines(words, Steps(w, spc, lim, pen, 0, true), i)
    decreases |w| - i
  {
    if i < |w| {
      var f := Steps(w, spc, lim, pen, 0, false);
      var t := Steps(w, spc, lim, pen, 0, true);
      StepsAgree(w, spc, lim, pen, 0);
      assert StepAgrees(f[i], t[i]);
      assert f[i] == t[i];
      ChainsAgree(words, w, spc, lim, pen, f[i].brk);
    }
  }

  // ---- Building the lines ------------------------------------------------------------------

  /** Breaks that all advance give a loop that advances from every position. */
  lemma {:induction false} AdvancingChains(steps: seq<Step>, n: nat, i: nat)
    requires |steps| == n && i <= n && Advancing(steps, n, i)
    ensures ChainAdvances(steps, n, i)
    decreases n - i
  {
    if i < n {
      AdvancingChains(steps, n, steps[i].brk);
    }
  }

  function Concat(lines: seq<seq<string>>): seq<string>
  {
    if |lines| == 0 then [] else lines[0] + Concat(lines[1..])
  }

  /** The lines the breaks describe, from position `i`: words `i .. brk-1`, then from `brk`. */
  function Lines(words: seq<string>, steps: seq<Step>, i: nat): seq<seq<string>>
    requires |steps| == |words| && i <= |words| && ChainAdvances(steps, |words|, i)
    decreases |words| - i
  {
    if i == |words| then [] else [words[i..steps[i].brk]] + Lines(words, steps, steps[i].brk)
  }

  lemma {:induction false} ConcatAppend(a: seq<seq<string>>, b: seq<seq<string>>)
    ensures Concat(a + b) == Concat(a) + Concat(b)
    decreases |a|
  {
    if |a| == 0 {
      assert a + b == b;
    } else {
      assert (a + b)[1..] == a[1..] + b;
      ConcatAppend(a[1..], b);
    }
  }

  function Widths(words: seq<string>, width: string -> nat): (r: seq<nat>)
    ensures |r| == |words|
    ensures forall k :: 0 <= k < |r| ==> r[k] == width(words[k])
  {
    if |words| == 0 then [] else [width(words[0])] + Widths(words[1..], width)
  }

  /** The inner loop for position `i` when the rest does not fit on one line: a running line
      width replaces WrapWords' precomputed `length` table. */
  method BestBreak(w: seq<nat>, spc: nat, lim: int, pen: int, i: nat, later: seq<Step>) returns (best: Step)
    requires i < |w| && |later| == |w| - i - 1 && LineLen(w, spc, i, |w|) > lim
    ensures best == StepAt(w, spc, lim, pen, i, later, true)
  {
    var n := |w|;
    best := Step(MaxInt32, 0);
    var j := i + 1;
    var len := w[i];
    SingleWordLine(w, spc, i);
    if i + 1 < n {
      var d := lim - len;
      best := Step(d * d + later[0].cost + (if len > lim then pen else 0), i + 1);
      LineLenStep(w, spc, i, i + 1);
      len := len + spc + w[i + 1];
      j := i + 2;
    }
    while j < n
      invariant i + 1 <= j <= n
      invariant j < n ==> len == LineLen(w, spc, i, j)
      invariant BestFrom(w, spc, lim, pen, i, j, best, later) == StepAt(w, spc, lim, pen, i, later, true)
    {
      var d := lim - len;
      var c := d * d + later[j - i - 1].cost + (if len > lim then pen else 0);
      assert c == Candidate(w, spc, lim, pen, i, j, later);
      if c < best.cost {
        best := Step(c, j);
      }
      if j + 1 < n {
        LineLenStep(w, spc, i, j);
        len := len + spc + w[j];
      }
      j := j + 1;
    }
  }

  /** The outer loop: positions from the last word back to the first. */
  method CostTable(w: seq<nat>, spc: nat, lim: int, pen: int) returns (steps: seq<Step>)
    ensures steps == Steps(w, spc, lim, pen, 0, true)
  {
    var n := |w|;
    steps := [];
    var i := n;
    while i > 0
      invariant 0 <= i <= n
      invariant steps == Steps(w, spc, lim, pen, i, true)
    {
      i := i - 1;
      var step;
      if LineLen(w, spc, i, n) <= lim {
        step := Step(0, n);
      } else {
        step := BestBreak(w, spc, lim, pen, i, steps);
      }
      steps := [step] + steps;
    }
  }

  /** WrapWords, corrected: the cost table, then the words cut at its breaks from the first
      word on. The lines are non-empty, follow the breaks of the table, and give back the
      words in order. */
  method WrapWords(words: seq<string>, width: string -> nat, spc: nat, lim: int, pen: int)
    returns (lines: seq<seq<string>>)
    requires forall k :: 0 <= k < |words| ==> width(words[k]) <= lim
    ensures Concat(lines) == words
    ensures forall k :: 0 <= k < |lines| ==> |lines[k]| > 0
    ensures var steps := Steps(Widths(words, width), spc, lim, pen, 0, true);
            Advancing(steps, |words|, 0) && ChainAdvances(steps, |words|, 0) && lines == Lines(words, steps, 0)
    ensures var asWritten := Steps(Widths(words, width), spc, lim, pen, 0, false);
            pen >= 0 && ChainAdvances(asWritten, |words|, 0) ==> lines == Lines(words, asWritten, 0)
  {
    var w := Widths(words, width);
    var n := |words|;
    var steps := CostTable(w, spc, lim, pen);
    StepsAdvance(w, spc, lim, pen, 0);
    assert Advancing(steps, n, 0);
    AdvancingChains(steps, n, 0);
    lines := CutLines(words, steps);
    if pen >= 0 && ChainAdvances(Steps(w, spc, lim, pen, 0, false), n, 0) {
      ChainsAgree(words, w, spc, lim, pen, 0);
    }
  }

  /** The reconstruction loop: from the first word, each line runs up to its break. */
  method CutLines(words: seq<string>, steps: seq<Step>) returns (lines: seq<seq<string>>)
    requires |steps| == |words| && ChainAdvances(steps, |words|, 0)
    ensures Concat(lines) == words
    ensures forall k :: 0 <= k < |lines| ==> |lines[k]| > 0
    ensures lines == Lines(words, steps, 0)
  {
    var n := |words|;
    lines := [];
    var k := 0;
    while k < n
      invariant 0 <= k <= n && ChainAdvances(steps, n, k)
      invariant Concat(lines) == words[..k]
      invariant forall m :: 0 <= m < |lines| ==> |lines[m]| > 0
      invariant lines + Lines(words, steps, k) == Lines(words, steps, 0)
      decreases n - k
    {
      var b := steps[k].brk;
      CutStep(words, steps, lines, k);
      lines := lines + [words[k..b]];
      k := b;
    }
    assert words[..n] == words;
  }

  /** One more line keeps the words so far and the lines still to come in step. */
  lemma CutStep(words: seq<string>, steps: seq<Step>, lines: seq<seq<string>>, k: nat)
    requires |steps| == |words| && k < |words| && ChainAdvances(steps, |words|, k)
    requires Concat(lines) == words[..k]
    ensures Concat(lines + [words[k..steps[k].brk]]) == words[..steps[k].brk]
    ensures Lines(words, steps, k) == [words[k..steps[k].brk]] + Lines(words, steps, steps[k].brk)
  {
    var b := steps[k].brk;
    ConcatAppend(lines, [words[k..b]]);
    assert Concat([words[k..b]]) == words[k..b] by {
      assert [words[k..b]][1..] == [];
    }
    assert words[..k] + words[k..b] == words[..b];
  }

  /** Extending a line by one word adds one gap and that word's width. */
  lemma LineLenStep(w: seq<nat>, spc: nat, i: nat, j: nat)
    requires i < j < |w|
    ensures LineLen(w, spc, i, j + 1) == LineLen(w, spc, i, j) + spc + w[j]
  {
    assert spc * (j + 1 - i - 1) == spc * (j - i - 1) + spc;
  }

  // ---- WrapString --------------------------------------------------------------------------

  /** `strings.Replace(s, "\n", " ", -1)`. */
  function ReplaceNewlines(s: string): (r: string)
    ensures |r| == |s|
    ensures forall i :: 0 <= i < |s| ==> r[i] == if s[i] == '\n' then ' ' else s[i]
  {
    if |s| == 0 then [] else [if s[0] == '\n' then ' ' else s[0]] + ReplaceNewlines(s[1..])
  }

  function JoinEach(groups: seq<seq<string>>, sep: char): (r: seq<string>)
    ensures |r| == |groups|
    ensures forall k :: 0 <= k < |r| ==> r[k] == Text.Join(groups[k], sep)
  {
    if |groups| == 0 then [] else [Text.Join(groups[0], sep)] + JoinEach(groups[1..], sep)
  }

  /** Joining each group and then the joined groups is joining all words, when no group is
      empty. */
  lemma {:induction false} JoinGroups(groups: seq<seq<string>>, sep: char)
    requires forall k :: 0 <= k < |groups| ==> |groups[k]| > 0
    ensures Text.Join(JoinEach(groups, sep), sep) == Text.Join(Concat(groups), sep)
    decreases |groups|
  {
    if |groups| > 1 {
      var rest := groups[1..];
      JoinGroups(rest, sep);
      ConcatNonEmpty(rest);
      Text.JoinAppend(groups[0], Concat(rest), sep);
      assert JoinEach(groups, sep) == [Text.Join(groups[0], sep)] + JoinEach(rest, sep);
    } else if |groups| == 1 {
      assert groups[1..] == [];
      assert Concat(groups) == groups[0];
      assert JoinEach(groups, sep) == [Text.Join(groups[0], sep)];
    }
  }

  lemma {:induction false} ConcatNonEmpty(groups: seq<seq<string>>)
    requires |groups| > 0 && forall k :: 0 <= k < |groups| ==> |groups[k]| > 0
    ensures |Concat(groups)| > 0
  {
  }

  /** The words of a message: newlines read as spaces, split on single spaces. */
  function Words(s: string): seq<string>
  {
    Text.Split(ReplaceNewlines(s), ' ')
  }

  /** The limit raised to the widest word: at least `lim`, at least every word's width, and
      either `lim` itself or the width of some word. */
  method RaiseLimit(words: seq<string>, lim: int, width: string -> nat) returns (limit: int)
    ensures limit >= lim
    ensures forall k :: 0 <= k < |words| ==> width(words[k]) <= limit
    ensures limit == lim || exists k :: 0 <= k < |words| && width(words[k]) == limit
  {
    limit := lim;
    var i := 0;
    while i < |words|
      invariant 0 <= i <= |words|
      invariant limit >= lim
      invariant forall k :: 0 <= k < i ==> width(words[k]) <= limit
      invariant limit == lim || exists k :: 0 <= k < i && width(words[k]) == limit
    {
      var m := width(words[i]);
      if m > limit {
        limit := m;
      }
      i := i + 1;
    }
  }

  /** WrapString: the words of `s` wrapped within the raised limit, each line's words joined by
      a space. Joining the lines with spaces gives back the text with newlines as spaces. */
  method WrapString(s: string, lim: int, width: string -> nat) returns (lines: seq<string>, limit: int)
    ensures Text.Join(lines, ' ') == ReplaceNewlines(s)
    ensures |lines| >= 1
    ensures limit >= lim
    ensures forall k :: 0 <= k < |Words(s)| ==> width(Words(s)[k]) <= limit
    ensures limit == lim || exists k :: 0 <= k < |Words(s)| && width(Words(s)[k]) == limit
    ensures var steps := Steps(Widths(Words(s), width), 1, limit, DefaultPenalty, 0, true);
            ChainAdvances(steps, |Words(s)|, 0) && lines == JoinEach(Lines(Words(s), steps, 0), ' ')
  {
    var words := Words(s);
    limit := RaiseLimit(words, lim, width);
    var groups := WrapWords(words, width, 1, limit, DefaultPenalty);
    lines := JoinEach(groups, ' ');
    JoinGroups(groups, ' ');
    assert Concat([]) == [];
  }
}

=== FILE: wrappers.dfy ===
/** Failure-carrying datatypes used in place of Go's `(value, error)` pairs and nil results. */
module Wrappers {

  /** `None` stands for Go's nil (a nil map, a nil slice, an absent document). */
  datatype Option<+T> = None | Some(value: T)

  /** The outcome of a Go call returning `(T, error)`: exactly one of the two is meaningful. */
  datatype Result<+T, +E> = Success(value: T) | Failure(error: E)
}
